=== FILE: README.md ===
# Expense tracker: a verified model of its core

The expense tracker is a personal-finance web application. Its Express/Mongoose
backend stores users and their income and expense entries. It serves
authentication, expense CRUD and three analytics reports. Its React frontend
shows a dashboard, a two-step password-reset page, a change-password page and
a theme switcher.

This project models the following in Dafny, as immutable values and pure
functions:

- **Schemas** (`records.dfy`): the `Expense` and `User` schemas. This covers
  required paths, the `type` enum, the `trim` and `lowercase` setters and the
  defaults. Validation is a function from a draft document to an optional
  expense. bcrypt is a symbolic digest that remembers the password it was made
  from.
- **Expense handlers** (`expense_store.dfy`): the four expense handlers over a
  collection modelled as a sequence of documents. Each handler returns the new
  collection together with its answer.
- **Analytics** (`analytics.dfy`): the summary fold, the `$group` by category
  and the `$group`/`$sort` by month. A grouping is specified by the `Tallies`
  predicate: one entry per distinct key, each carrying its key's total.
- **Authentication** (`auth.dfy`): register, login, change password, forgot
  password (the one-time code and its ten-minute expiry), reset password and
  delete account. They run over a user collection kept `WellFormed`: unique
  ids, unique lower-case emails, and a consistent reset slot.
- **Dashboard** (`dashboard.dfy`): how the page loads the list, its search,
  type and date filters, its sort choices and its pager.
- **Forgot-password page** (`forgot_password_form.dfy`): the six OTP cells,
  paste, the submit checks, and the resend countdown, driven by a sequence of
  UI events.
- **Change-password page** (`change_password_form.dfy`): the submit checks.
- **Theme provider** (`theme.dfy`): the theme table, the stored choice, the
  guarded setter, and the effect on the body's class list.

`base.dfy` holds `Option`/`Result` and the shared identifiers. `seqs.dfy` holds
a stable insertion sort and `filter`. `text.dfy` holds `toLowerCase`, `trim`,
the `\d` class and integer-to-decimal conversion.

Some values come from outside the program and are parameters instead:

- the current time `now`;
- the random draw behind an OTP;
- the bcrypt salt;
- the id a new document receives;
- whether a frontend request succeeded.

## Model

| member | source | states |
|---|---|---|
| Text.Lower | expense-tracker-backend/models/User.js:14 | lower-casing keeps the length and maps every character through the ASCII case map |
| Text.LowerIdempotent | expense-tracker-backend/models/User.js:14 | lowering a stored (already lowered) email again changes nothing, so stored emails are their own lookup keys |
| Text.Trim | expense-tracker-backend/models/User.js:8 | the result is the infix of the input left after dropping whitespace at both ends: only whitespace lies outside it, and it neither starts nor ends with whitespace |
| Text.TrimIsTheInfix | expense-tracker-backend/models/User.js:8 | any infix with only whitespace around it and none at its own ends is exactly the trimmed string, so `trim` gives the longest such infix |
| Text.TrimIdempotent | expense-tracker-backend/models/User.js:8 | trimming a trimmed name changes nothing |
| Text.TrimNoSpaces | expense-tracker-backend/controllers/authController.js:171 | a string without whitespace is its own trim, so the server's trimming leaves a six-digit code alone |
| Text.Decimal | expense-tracker-backend/controllers/authController.js:126 | `toString` of a non-negative integer is a non-empty digit string with no leading zero |
| Text.DecimalRoundTrip | expense-tracker-backend/controllers/authController.js:126 | reading back the printed digits gives the number again |
| Text.SixDigitDecimal | expense-tracker-backend/controllers/authController.js:126 | every number from 100000 to 999999 prints as exactly six digits |
| Seqs.Filter | expense-tracker-backend/controllers/expenseController.js:30 | the kept elements are exactly the input's elements satisfying the predicate, no more often than in the input |
| Seqs.FilterCount | expense-tracker-frontend/src/pages/Dashboard.jsx:79-95 | filtering keeps every element satisfying the predicate exactly as often as the input has it, and no other |
| Seqs.FilterPermutation | expense-tracker-frontend/src/pages/Dashboard.jsx:79-95 | filtering two permutations of each other gives permutations of each other, so the order the server sends does not change what the page shows |
| Seqs.SortBy | expense-tracker-frontend/src/pages/Dashboard.jsx:96-108 | sorting is a permutation of its input, ordered by the key |
| Seqs.SortBySorted | expense-tracker-frontend/src/pages/Dashboard.jsx:107 | sorting an already ordered sequence keeps it as it is |
| Seqs.SortByConstant | expense-tracker-frontend/src/pages/Dashboard.jsx:107 | a comparator that always answers 0 leaves the order unchanged |
| Seqs.RemoveAt | expense-tracker-backend/controllers/expenseController.js:64-67 | removing one document removes exactly that occurrence and keeps the others in order |
| Records.ParseKind | expense-tracker-backend/models/Expense.js:14-18 | a string passes the `type` enum exactly when it is "income" or "expense", and it parses to the kind of that name |
| Records.ParseKindName | expense-tracker-backend/models/Expense.js:14-18 | the name of a kind parses back to that kind |
| Records.Validate | expense-tracker-backend/models/Expense.js:5-27 | validation succeeds exactly when user, amount, an enum type and a non-empty category are present; the expense then carries the draft's fields, with `now` as the default date |
| Records.ValidateToDraft | expense-tracker-backend/models/Expense.js:5-27 | saving a loaded document without changes validates to the same expense |
| Records.ToDraftValidate | expense-tracker-backend/models/Expense.js:24-27 | a validated draft is the stored document, apart from a missing date, which becomes `now` |
| Records.HashThenMatch | expense-tracker-backend/controllers/authController.js:23-24 | a hash matches the password it was made from, whatever the salt, and no other password (passwords are compared whole; see "## Left out") |
| Records.StoredNameIsTrimmed | expense-tracker-backend/models/User.js:5-9 | a stored user's name is its own trim, as the `trim` setter leaves it |
| Records.CreateUser | expense-tracker-backend/models/User.js:5-32 | creation succeeds exactly for a non-blank name and a non-empty email; the user has the trimmed name, the lower-cased email, an empty reset slot and the default preferences |
| ExpenseStore.AddExpense | expense-tracker-backend/controllers/expenseController.js:8-21 | 400 exactly when amount, type or category is falsy; a truthy body succeeds exactly when its type is in the enum and the id is fresh, otherwise it fails validation (type) or the unique index (id) with 500; on success the new expense is appended, owned by the requester, with the body's fields; a failure changes nothing |
| ExpenseStore.AddExpensePreserves | expense-tracker-backend/controllers/expenseController.js:12-21 | an add keeps ids unique and documents valid, and grows the requester's expenses by exactly the new one |
| ExpenseStore.GetExpenses | expense-tracker-backend/controllers/expenseController.js:30-34 | the answer is a permutation of the requester's documents (all of them, nobody else's), newest date first |
| ExpenseStore.GetExpensesIgnoresOthers | expense-tracker-backend/controllers/expenseController.js:30 | adding another user's expense does not change what the requester is listed |
| ExpenseStore.FindOwned | expense-tracker-backend/controllers/expenseController.js:43-46 | the lookup finds the first document with that id owned by the requester, and fails exactly when there is none |
| ExpenseStore.UpdateExpense | expense-tracker-backend/controllers/expenseController.js:43-55 | 404 exactly when the requester owns no such document; otherwise only that document changes, overwritten by the body's present fields; the only other failure is validation |
| ExpenseStore.UpdateValidation | expense-tracker-backend/controllers/expenseController.js:52-53 | an update of an owned document succeeds exactly when the body's type (if any) is in the enum and its category (if any) is non-empty |
| ExpenseStore.UpdateExpensePreserves | expense-tracker-backend/controllers/expenseController.js:52-55 | an update keeps the collection invariant and every other document; without a `user` key the owner stays the requester |
| ExpenseStore.UpdateForeignIsAbsent | expense-tracker-backend/controllers/expenseController.js:43-50 | updating another user's id answers exactly as if the id did not exist, and changes nothing |
| ExpenseStore.DeleteExpense | expense-tracker-backend/controllers/expenseController.js:64-73 | 404 exactly when the requester owns no such document; otherwise that one document is removed and the rest keep their order |
| ExpenseStore.DeleteExpensePreserves | expense-tracker-backend/controllers/expenseController.js:64-73 | after a delete no document has that id, every other document is still there, and the invariant holds |
| Analytics.SummaryOf | expense-tracker-backend/controllers/analyticsController.js:11-26 | the loop's totals are the income sum and the sum of everything else, and the balance is their difference |
| Analytics.GetSummary | expense-tracker-backend/controllers/analyticsController.js:9-26 | the summary covers only the requester's expenses, its two totals add up to the grand total, and it is all zero for no expenses |
| Analytics.SummaryPartition | expense-tracker-backend/controllers/analyticsController.js:14-20 | every amount lands in exactly one of the two totals |
| Analytics.AddTo | expense-tracker-backend/controllers/analyticsController.js:42 | accumulating one amount into a tally raises the tally's sum by that amount |
| Analytics.TalliesStep | expense-tracker-backend/controllers/analyticsController.js:40-43 | adding one expense to a correct grouping keeps it correct for the extended list |
| Analytics.GroupBy | expense-tracker-backend/controllers/analyticsController.js:40-43 | the grouping has one entry per distinct key present, each carrying that key's total, and the totals add up to the grand total |
| Analytics.TalliesPermutation | expense-tracker-backend/controllers/analyticsController.js:40-43 | any two correct groupings of the same expenses are permutations of each other, so the unspecified output order is all that can differ |
| Analytics.CategoryBreakdown | expense-tracker-backend/controllers/analyticsController.js:37-45 | one entry per distinct category among the requester's expenses, whatever their type, carrying that category's total; every owned category appears; totals add up to the requester's grand total |
| Analytics.MonthsFrom | expense-tracker-backend/controllers/analyticsController.js:60-66 | the entries are the months that have data, strictly ascending, each with its total |
| Analytics.MonthlyReport | expense-tracker-backend/controllers/analyticsController.js:58-66 | the report is a correct grouping of the requester's expenses by month of year, in strictly ascending month order |
| Analytics.MonthlyIsSortedGroup | expense-tracker-backend/controllers/analyticsController.js:58-66 | the monthly report is a permutation of the plain grouping by month, and its totals add up to the grand total |
| Analytics.SumTotalsPermutation | expense-tracker-backend/controllers/analyticsController.js:66 | reordering the grouped entries does not change their sum |
| Analytics.ReportsIgnoreOthers | expense-tracker-backend/controllers/analyticsController.js:9-66 | another user's expense changes none of the requester's summary totals, category breakdown or monthly report |
| Auth.FindByEmail | expense-tracker-backend/controllers/authController.js:17 | the lookup answers a user with exactly that email, and fails exactly when there is none |
| Auth.FindById | expense-tracker-backend/controllers/authController.js:91 | the lookup answers a user with exactly that id, and fails exactly when there is none |
| Auth.FindByEmailUnique | expense-tracker-backend/models/User.js:10-15 | in a well-formed collection, a user's email finds that very user |
| Auth.LookupsAfterUpdate | expense-tracker-backend/controllers/authController.js:103-106 | saving a user with the same email and id leaves both lookups as they were |
| Auth.Register | expense-tracker-backend/controllers/authController.js:17-37 | 400 when the lower-cased email is taken; success exactly for a free email, a non-blank name, a non-empty email and an id no user has; the new user is appended with the hashed password and an empty reset slot; a failure changes nothing |
| Auth.RegisterPreserves | expense-tracker-backend/controllers/authController.js:26-30 | registration keeps ids and emails unique and every user valid |
| Auth.RegisterTwiceFails | expense-tracker-backend/controllers/authController.js:17-21 | after a registration, every email with the same lower-case form is refused and nothing is created |
| Auth.Login | expense-tracker-backend/controllers/authController.js:48-65 | success exactly when the lower-cased email is registered and the password matches; both failures give the same "invalid credentials" |
| Auth.LoginIff | expense-tracker-backend/controllers/authController.js:48-58 | on a well-formed collection, login succeeds iff some user has the lower-cased email and a matching password |
| Auth.RegisterThenLogin | expense-tracker-backend/controllers/authController.js:23-58 | a fresh registration can log in with its password, whatever the letter case of the email |
| Auth.ChangePassword | expense-tracker-backend/controllers/authController.js:91-108 | 404 for an unknown requester; success exactly when the old password matches; then only the password changes, and the new one matches |
| Auth.ChangePasswordPreserves | expense-tracker-backend/controllers/authController.js:103-106 | a password change keeps the collection well-formed |
| Auth.IssuedCode | expense-tracker-backend/controllers/authController.js:126 | an issued code is six digits and denotes 100000 plus the draw modulo 900000 |
| Auth.IssuedCodeInjective | expense-tracker-backend/controllers/authController.js:126 | draws that differ modulo 900000 give different codes |
| Auth.ForgotPassword | expense-tracker-backend/controllers/authController.js:119-131 | 404 exactly for an unknown lower-cased email; otherwise only that user's reset slot changes, to the issued code expiring ten minutes after `now` |
| Auth.ForgotPasswordPreserves | expense-tracker-backend/controllers/authController.js:126-131 | issuing a code keeps the collection well-formed |
| Auth.ResetPassword | expense-tracker-backend/controllers/authController.js:149-185 | the checks in source order: unknown email, no code requested, expired (the slot is cleared), wrong trimmed code; success exactly when a code is pending, not expired and equal after trimming; then the new password is set and the slot cleared |
| Auth.ResetPasswordPreserves | expense-tracker-backend/controllers/authController.js:164-183 | every reset outcome keeps the collection well-formed |
| Auth.ResetWithPendingCode | expense-tracker-backend/controllers/authController.js:164-177 | with a live code pending, a reset succeeds exactly for that code (give or take whitespace); any other code is refused and changes nothing |
| Auth.ForgotThenReset | expense-tracker-backend/controllers/authController.js:126-185 | within ten minutes of a request, the issued code resets the password and any other code is refused without change |
| Auth.SecondRequestSupersedes | expense-tracker-backend/controllers/authController.js:129-173 | after a second request, the first code is refused as invalid |
| Auth.ExpiredCodeFails | expense-tracker-backend/controllers/authController.js:160-168 | after ten minutes even the right code is refused as expired, and a retry reports that no code was requested |
| Auth.ResetIsSingleUse | expense-tracker-backend/controllers/authController.js:175-185 | after a successful reset, any replayed code reports that no code was requested, and the new password logs in |
| Auth.DeleteAccount | expense-tracker-backend/controllers/authController.js:196-214 | 404 for an unknown requester; success exactly when the password matches; then the user and all of their expenses go, and every other expense stays |
| Auth.DeleteAccountPreserves | expense-tracker-backend/controllers/authController.js:209-214 | after a deletion neither the id nor the email resolves, the old credentials no longer log in, the collection stays well-formed, and the others' expenses are kept in order |
| Dashboard.LoadAsWritten | expense-tracker-frontend/src/pages/Dashboard.jsx:57-58 | the page reads a plain array as an empty list on one page, and a paged envelope as its list |
| Dashboard.DashboardDropsPlainArray | expense-tracker-frontend/src/pages/Dashboard.jsx:51-58 | one stored expense gives a non-empty server answer, which the page reads as empty |
| Dashboard.Load | expense-tracker-frontend/src/pages/Dashboard.jsx:57-58 | the corrected reading takes a plain array as the whole list on one page, and agrees with the page on a paged envelope |
| Dashboard.LoadServerAnswer | expense-tracker-backend/controllers/expenseController.js:30-34 | read the corrected way, the page holds exactly the requester's expenses (a permutation of them), newest first, on one page |
| Dashboard.SortKeyOrder | expense-tracker-frontend/src/pages/Dashboard.jsx:96-105 | ordering by each comparator's key gives the order its name promises |
| Dashboard.SortChoice | expense-tracker-frontend/src/pages/Dashboard.jsx:96-108 | each sort choice orders as it promises, and an unknown choice keeps the filtered order |
| Dashboard.FilteredExpenses | expense-tracker-frontend/src/pages/Dashboard.jsx:79-108 | the list holds exactly the shown items of the input, as a permutation of the single combined filter, in the chosen order; an unknown sort keeps the filter's order |
| Dashboard.ShownMembers | expense-tracker-frontend/src/pages/Dashboard.jsx:79-95 | the combined filter keeps exactly the input items that are shown |
| Dashboard.PipelineIsOneFilter | expense-tracker-frontend/src/pages/Dashboard.jsx:79-95 | the three successive filters equal one filter by the combined condition, order included |
| Dashboard.ShownIff | expense-tracker-frontend/src/pages/Dashboard.jsx:80-95 | an item is shown iff it passes search, type and date range; with no dates every date passes; an empty search matches every category |
| Dashboard.ClickPrev | expense-tracker-frontend/src/pages/Dashboard.jsx:372-378 | a click changes nothing iff the button is disabled (page 1), and otherwise goes back one page |
| Dashboard.ClickNext | expense-tracker-frontend/src/pages/Dashboard.jsx:379-385 | a click changes nothing iff the button is disabled (last page), and otherwise goes forward one page |
| Dashboard.PagerStaysInRange | expense-tracker-frontend/src/pages/Dashboard.jsx:372-385 | from a page within range, both buttons keep the page between 1 and the page count |
| Dashboard.View | expense-tracker-frontend/src/pages/Dashboard.jsx:51-108 | the dashboard lists exactly the requester's stored expenses that the controls show, each as often as stored (a permutation of the filtered list), in the chosen order |
| ForgotPasswordForm.InitialOk | expense-tracker-frontend/src/pages/ForgotPassword.jsx:19-27 | the initial state is well formed, with an empty code |
| ForgotPasswordForm.JoinBlank | expense-tracker-frontend/src/pages/ForgotPassword.jsx:64 | cleared cells join to the empty code |
| ForgotPasswordForm.OtpChange | expense-tracker-frontend/src/pages/ForgotPassword.jsx:68-72 | a value with a non-digit changes nothing; otherwise only the edited cell changes, to the value's last character or nothing; well-formed cells stay well formed |
| ForgotPasswordForm.Split | expense-tracker-frontend/src/pages/ForgotPassword.jsx:89 | splitting gives one cell per character |
| ForgotPasswordForm.JoinSplit | expense-tracker-frontend/src/pages/ForgotPassword.jsx:86-97 | joining the split cells gives the pasted text back |
| ForgotPasswordForm.OtpPaste | expense-tracker-frontend/src/pages/ForgotPassword.jsx:86-92 | a trimmed six-digit paste fills the cells so that they join to it; any other paste changes nothing |
| ForgotPasswordForm.JoinFilled | expense-tracker-frontend/src/pages/ForgotPassword.jsx:97-99 | joined cells are digits, one per filled cell, and their count equals the cell count iff no cell is empty |
| ForgotPasswordForm.JoinedSixIffAllFilled | expense-tracker-frontend/src/pages/ForgotPassword.jsx:97-101 | the joined code has six characters iff all six cells are filled, and is then six digits without whitespace |
| ForgotPasswordForm.ResetSubmit | expense-tracker-frontend/src/pages/ForgotPassword.jsx:95-115 | the request is sent iff the code is complete, the password has at least six characters and it matches the confirmation; otherwise the first failing check, in that order, is reported |
| ForgotPasswordForm.SentCodeIsSixDigits | expense-tracker-frontend/src/pages/ForgotPassword.jsx:97-115 | a sent code comes from six filled cells, is six digits, and is its own trim on the server |
| ForgotPasswordForm.SendOtp | expense-tracker-frontend/src/pages/ForgotPassword.jsx:47-60 | success moves to step 2 with a 60-second countdown; failure changes nothing |
| ForgotPasswordForm.ResendOtp | expense-tracker-frontend/src/pages/ForgotPassword.jsx:62-66 | nothing happens while the countdown runs; otherwise the cells are cleared and the code sent again |
| ForgotPasswordForm.Tick | expense-tracker-frontend/src/pages/ForgotPassword.jsx:33-38 | one second lowers a positive countdown by one and changes nothing else |
| ForgotPasswordForm.TicksCountDown | expense-tracker-frontend/src/pages/ForgotPassword.jsx:33-38 | after n seconds the countdown has gone down by n, stopping at 0, and nothing else changed |
| ForgotPasswordForm.Back | expense-tracker-frontend/src/pages/ForgotPassword.jsx:308 | "Back" returns to step 1 and keeps the email, the six cells, both passwords and the running countdown |
| ForgotPasswordForm.BackThenSend | expense-tracker-frontend/src/pages/ForgotPassword.jsx:47-60 | going back from the code step and sending again lands on the code step with the cells, email and passwords as they were, and a fresh 60-second countdown; a failed send leaves the page on step 1 with everything kept |
| ForgotPasswordForm.ApplyPreserves | expense-tracker-frontend/src/pages/ForgotPassword.jsx:19-92 | every user event keeps six cells of at most one digit, a step of 1 or 2, and a countdown from 0 to 60 |
| ForgotPasswordForm.Run | expense-tracker-frontend/src/pages/ForgotPassword.jsx:19-92 | any sequence of events on the six inputs keeps the page's state well formed |
| ChangePasswordForm.Submit | expense-tracker-frontend/src/pages/ChangePassword.jsx:20-39 | the change is sent iff the new password matches its confirmation and has at least six characters; the mismatch is checked first; the old password is passed on unchanged |
| ChangePasswordForm.OldPasswordUnchecked | expense-tracker-frontend/src/pages/ChangePassword.jsx:23-39 | whether the change is sent never depends on the old password, and a short mismatching password is reported as a mismatch |
| ChangePasswordForm.SubmitThenLogin | expense-tracker-frontend/src/pages/ChangePassword.jsx:36-39 | a sent change with the right old password succeeds on the server, and the user can then log in with the confirmed password |
| Theme.ThemesTable | expense-tracker-frontend/src/context/ThemeContext.jsx:4-219 | there are exactly four themes, each filed under its own id |
| Theme.InitialThemeId | expense-tracker-frontend/src/context/ThemeContext.jsx:224-226 | the initial id is the stored value unless it is missing or empty, in which case "royal" |
| Theme.CurrentTheme | expense-tracker-frontend/src/context/ThemeContext.jsx:228 | the shown theme is always one of the four: the named one when the id is known, the royal one otherwise |
| Theme.ClassOfInjective | expense-tracker-frontend/src/context/ThemeContext.jsx:239 | different ids give different body classes |
| Theme.ThemeClassOf | expense-tracker-frontend/src/context/ThemeContext.jsx:234-243 | the class of an id is one of the four theme classes iff the id is known |
| Theme.RemoveOthersIff | expense-tracker-frontend/src/context/ThemeContext.jsx:241-243 | a class survives the removal walk iff it was present and belongs to none of the other walked ids |
| Theme.BodyClasses | expense-tracker-frontend/src/context/ThemeContext.jsx:233-244 | the effect's `classList.add` throws exactly when the id holds DOM whitespace, leaving only the removal of `theme-noir` done; otherwise the body has every non-theme class it had, no other theme class, plus the current id's class |
| Theme.NoirBranch | expense-tracker-frontend/src/context/ThemeContext.jsx:234-236 | the noir branch leaves the body with the noir class and no other theme class |
| Theme.OtherBranch | expense-tracker-frontend/src/context/ThemeContext.jsx:237-244 | the other branch leaves the body with the current id's class and no other theme class |
| Theme.BodyHasOneThemeClass | expense-tracker-frontend/src/context/ThemeContext.jsx:230-245 | for a known theme the effect does not throw, and the body carries exactly one of the four theme classes, that theme's own, and its other classes untouched |
| Theme.Effect | expense-tracker-frontend/src/context/ThemeContext.jsx:230-245 | the effect stores the current id before touching the class list, keeping the id; it crashes the page exactly when the id holds DOM whitespace, and otherwise leaves the current id's class as the only theme class |
| Theme.Mount | expense-tracker-frontend/src/context/ThemeContext.jsx:224-245 | mounting starts from the initial id and leaves it persisted |
| Theme.SetTheme | expense-tracker-frontend/src/context/ThemeContext.jsx:247-249 | a known id is taken and an unknown one changes nothing; the stored value keeps following the choice; a crashed page stays as it is, and a choice never crashes one |
| Theme.SetThemes | expense-tracker-frontend/src/context/ThemeContext.jsx:247-249 | after any sequence of choices the choice is persisted, and a known theme stays known |
| Theme.ReloadRestoresChoice | expense-tracker-frontend/src/context/ThemeContext.jsx:224-231 | reloading after any sequence of choices comes back to the last chosen theme |
| Theme.TokenClassOf | expense-tracker-frontend/src/context/ThemeContext.jsx:239 | `theme-${id}` is a class-list token (no DOM whitespace) exactly when the id is |
| Theme.UnknownStoredId | expense-tracker-frontend/src/context/ThemeContext.jsx:224-243 | a stored unknown id without whitespace is kept: the page does not crash, the royal theme is shown, but the body carries none of the four theme classes |
| Theme.StoredIdWithSpaceCrashes | expense-tracker-frontend/src/context/ThemeContext.jsx:224-239 | a stored id holding whitespace crashes the page on mount after storing itself again, so every reload crashes too |
| Theme.ChoicesNeverCrash | expense-tracker-frontend/src/context/ThemeContext.jsx:247-249 | a page that has not crashed stays uncrashed through any sequence of `setTheme` calls |

## Left out

- HTTP, routing, JWT issuing and checking (`generateToken` and the `protect` middleware) and `getProfile` are outside this model. The requester's id is a parameter of every handler, and register and login answers omit the token.
- bcrypt is symbolic: a digest records its password, and hash collisions and the cost factor are not modelled.
- Records.HashThenMatch: bcryptjs hashes only the first 72 bytes of a password, so two passwords sharing a 72-byte prefix match the same hash. The model compares whole passwords, so this truncation is not modelled, and neither is it in `Auth.Login`, `Auth.LoginIff`, `Auth.ChangePassword`, `Auth.DeleteAccount` and `Auth.ResetIsSingleUse`, which all match through `Records.Matches`.
- Case mapping covers ASCII letters only. `trim` uses the ECMAScript whitespace set. Strings are sequences of `char`, while JavaScript counts UTF-16 code units.
- Amounts are integers. JavaScript numbers are doubles, so rounding and non-numeric amounts (cast failures) are not modelled.
- Request bodies with `null` values, and missing `email`, `otp`, `password`, `oldPassword` or `newPassword` fields, are not modelled: body fields are strings here. In the source they make the handlers throw (500), `toLowerCase`/`toString` on an absent value and bcrypt on `undefined` alike; for instance a login without `password` for a stored email is a 500 at expense-tracker-backend/controllers/authController.js:54, not "Invalid credentials". The only 500s modelled are validation failures and duplicate ids.
- Dates are abstracted to a millisecond instant plus its month of year (1-12). Time zones and the calendar are not modelled, and `$month` is taken in UTC as recorded.
- The `createdAt`/`updatedAt` timestamps and the pagination query parameters are not modelled. The server ignores the pagination parameters.
- Auth.Register / Auth.Login: the collection's unique index on email is assumed to behave like the lower-cased `findOne` lookup. Both lookups pass the raw email to `findOne` (expense-tracker-backend/controllers/authController.js:17 and :48) and rely on Mongoose applying the `lowercase` setter to the query value, which is an assumption of this model; both contracts look up `Lower(email)`.
- Auth.DeleteAccount: removing the expenses and then the user is atomic here. In the source these are two separate writes, and concurrent requests are not modelled.
- ExpenseStore.UpdateExpense: a `user` key in the body reassigns the owner, exactly as `Object.assign` does. The model records this and does not forbid it.
- Analytics.CategoryBreakdown: the database promises no order for `$group`. The model lists entries in order of first appearance, and `Analytics.TalliesPermutation` shows that any correct grouping is a permutation of this one.
- Dashboard: items without a category are not modelled, because the schema requires one. The summary cards, the delete button's toast and the refetch are side effects and are left out.
- Dashboard date bounds are instants. The browser's parsing of the date inputs is not modelled.
- ForgotPasswordForm: focus moves, toasts, the `loading` and `success` flags, and the browser's default paste when the clipboard is not six digits are left out. So are the real clock and the request itself. A request's outcome is a parameter.
- Theme: the colour classes of each theme and the rendering are not modelled. A crash is recorded as a flag on the provider; the unmounted page and React's error reporting are not modelled. `themes[id]` is modelled as a key lookup among the four ids, ignoring inherited object properties such as `"constructor"`.
- The remaining pages (login, register, add and edit expense, analytics, appearance) only call the modelled handlers and are not part of this model. The profile page is not part of it either: it loads `getProfile`, which is left out (expense-tracker-frontend/src/pages/Profile.jsx:39), and its delete button calls the modelled `Auth.DeleteAccount` (Profile.jsx:60).

## Findings

| source | as written | input that shows it | evidently intended | confidence | as-written member | corrected member |
|---|---|---|---|---|---|---|
| expense-tracker-frontend/src/pages/Dashboard.jsx:57-58 | the page reads `data?.expenses` and `data?.totalPages`, but `getExpenses` (expense-tracker-backend/controllers/expenseController.js:34) answers a plain array, so the list is always empty and there is always one page | one stored expense of user 0, category "food", amount 250: the server answers it, and the page shows nothing | the answer's array is the list itself | medium: the backend's `getExpenses` (expenseController.js:34) never sends the paged envelope; not executed | Dashboard.LoadAsWritten, Dashboard.DashboardDropsPlainArray | Dashboard.Load, Dashboard.LoadServerAnswer, Dashboard.View |

=== FILE: analytics.dfy ===
/** The three read-only reports over a user's expenses
    (controllers/analyticsController.js): an income/expense summary, a total
    per category and a total per month-of-year. The database's `$group` and
    `$sort` stages are specified directly as functions over sequences. */
module Analytics {
  import opened Base
  import opened Seqs
  import opened Records
  import opened ExpenseStore

  // ---------------------------------------------------------------------------
  // Reference sums
  // ---------------------------------------------------------------------------

  /** The sum of all amounts. */
  function Total(xs: seq<Expense>): int {
    if |xs| == 0 then 0 else Total(xs[..|xs| - 1]) + xs[|xs| - 1].amount
  }

  /** The sum of the amounts whose type is "income". */
  function IncomeTotal(xs: seq<Expense>): int {
    if |xs| == 0 then 0
    else IncomeTotal(xs[..|xs| - 1]) + (if xs[|xs| - 1].kind == Income then xs[|xs| - 1].amount else 0)
  }

  /** The sum of the amounts whose type is anything but "income". */
  function OtherTotal(xs: seq<Expense>): int {
    if |xs| == 0 then 0
    else OtherTotal(xs[..|xs| - 1]) + (if xs[|xs| - 1].kind != Income then xs[|xs| - 1].amount else 0)
  }

  /** The sum of the amounts of the expenses whose `key` is `k`. */
  function KeyTotal<K(==)>(xs: seq<Expense>, key: Expense -> K, k: K): int {
    if |xs| == 0 then 0
    else KeyTotal(xs[..|xs| - 1], key, k) + (if key(xs[|xs| - 1]) == k then xs[|xs| - 1].amount else 0)
  }

  /** Some expense has `key` equal to `k`. */
  predicate Occurs<K(==)>(xs: seq<Expense>, key: Expense -> K, k: K) {
    exists j :: 0 <= j < |xs| && key(xs[j]) == k
  }

  lemma {:induction false} KeyTotalAbsent<K>(xs: seq<Expense>, key: Expense -> K, k: K)
    requires !Occurs(xs, key, k)
    ensures KeyTotal(xs, key, k) == 0
  {
    if |xs| > 0 {
      KeyTotalAbsent(xs[..|xs| - 1], key, k);
    }
  }

  lemma OccursAt<K>(xs: seq<Expense>, key: Expense -> K, j: nat)
    requires j < |xs|
    ensures Occurs(xs, key, key(xs[j]))
  {
  }

  lemma AppendPrefix(xs: seq<Expense>, x: Expense)
    ensures (xs + [x])[..|xs|] == xs
  {
  }

  // ---------------------------------------------------------------------------
  // Summary
  // ---------------------------------------------------------------------------

  datatype Summary = Summary(totalIncome: int, totalExpense: int, balance: int)

  /** The `forEach` fold of `getSummary`: an "income" amount goes to
      `totalIncome`, every other amount to `totalExpense`. */
  method SummaryOf(xs: seq<Expense>) returns (r: Summary)
    ensures r.totalIncome == IncomeTotal(xs)
    ensures r.totalExpense == OtherTotal(xs)
    ensures r.balance == r.totalIncome - r.totalExpense
  {
    var totalIncome := 0;
    var totalExpense := 0;
    var i := 0;
    while i < |xs|
      invariant 0 <= i <= |xs|
      invariant totalIncome == IncomeTotal(xs[..i])
      invariant totalExpense == OtherTotal(xs[..i])
    {
      assert xs[..i + 1][..i] == xs[..i];
      if xs[i].kind == Income {
        totalIncome := totalIncome + xs[i].amount;
      } else {
        totalExpense := totalExpense + xs[i].amount;
      }
      i := i + 1;
    }
    assert xs[..|xs|] == xs;
    r := Summary(totalIncome, totalExpense, totalIncome - totalExpense);
  }

  /** `getSummary`: the fold over the requester's expenses only. */
  method GetSummary(s: Store, requester: UserId) returns (r: Summary)
    ensures r.totalIncome == IncomeTotal(Owned(s, requester))
    ensures r.totalExpense == OtherTotal(Owned(s, requester))
    ensures r.balance == r.totalIncome - r.totalExpense
    ensures r.totalIncome + r.totalExpense == Total(Owned(s, requester))
    ensures |Owned(s, requester)| == 0 ==> r == Summary(0, 0, 0)
  {
    r := SummaryOf(Owned(s, requester));
    SummaryPartition(Owned(s, requester));
  }

  /** Every amount lands in exactly one of the two totals. */
  lemma {:induction false} SummaryPartition(xs: seq<Expense>)
    ensures IncomeTotal(xs) + OtherTotal(xs) == Total(xs)
  {
    if |xs| > 0 {
      SummaryPartition(xs[..|xs| - 1]);
    }
  }

  // ---------------------------------------------------------------------------
  // Grouping
  // ---------------------------------------------------------------------------

  predicate DistinctKeys<K(==)>(g: seq<(K, int)>) {
    forall i, j :: 0 <= i < j < |g| ==> g[i].0 != g[j].0
  }

  predicate HasKey<K(==)>(g: seq<(K, int)>, k: K) {
    exists i :: 0 <= i < |g| && g[i].0 == k
  }

  /** `g` is a correct `$group` of `xs` by `key` with `$sum` of amounts: one
      entry per distinct key value present, each carrying that key's total. */
  ghost predicate Tallies<K>(g: seq<(K, int)>, xs: seq<Expense>, key: Expense -> K) {
    && DistinctKeys(g)
    && (forall i :: 0 <= i < |g| ==> Occurs(xs, key, g[i].0) && g[i].1 == KeyTotal(xs, key, g[i].0))
    && (forall j :: 0 <= j < |xs| ==> HasKey(g, key(xs[j])))
  }

  function SumTotals<K>(g: seq<(K, int)>): int {
    if |g| == 0 then 0 else SumTotals(g[..|g| - 1]) + g[|g| - 1].1
  }

  function IndexOfKey<K(==)>(g: seq<(K, int)>, k: K): (r: Option<nat>)
    ensures r.Some? ==> r.value < |g| && g[r.value].0 == k
    ensures r.None? ==> !HasKey(g, k)
  {
    if |g| == 0 then None
    else if g[0].0 == k then Some(0)
    else match IndexOfKey(g[1..], k)
      case None => None
      case Some(p) => Some(p + 1)
  }

  /** Adds `a` to the entry for `k`, or appends a new entry when there is none. */
  function AddTo<K(==)>(g: seq<(K, int)>, k: K, a: int): (r: seq<(K, int)>)
    ensures SumTotals(r) == SumTotals(g) + a
  {
    match IndexOfKey(g, k)
    case Some(p) =>
      SumTotalsUpdate(g, p, (k, g[p].1 + a));
      g[p := (k, g[p].1 + a)]
    case None =>
      assert (g + [(k, a)])[..|g|] == g;
      g + [(k, a)]
  }

  lemma {:induction false} SumTotalsUpdate<K>(g: seq<(K, int)>, p: nat, e: (K, int))
    requires p < |g|
    ensures SumTotals(g[p := e]) == SumTotals(g) - g[p].1 + e.1
  {
    var n := |g|;
    if p < n - 1 {
      assert g[p := e][..n - 1] == g[..n - 1][p := e];
      SumTotalsUpdate(g[..n - 1], p, e);
    } else {
      assert g[p := e][..n - 1] == g[..n - 1];
    }
  }

  /** Appending `x` adds its amount to the total of its own key only, and every
      key that occurred still occurs, as does `x`'s. */
  lemma AppendTotals<K>(xs: seq<Expense>, key: Expense -> K, x: Expense)
    ensures forall c :: KeyTotal(xs + [x], key, c) == KeyTotal(xs, key, c) + (if c == key(x) then x.amount else 0)
    ensures forall c :: Occurs(xs, key, c) ==> Occurs(xs + [x], key, c)
    ensures Occurs(xs + [x], key, key(x))
  {
    var xs' := xs + [x];
    AppendPrefix(xs, x);
    forall c | Occurs(xs, key, c) ensures Occurs(xs', key, c) {
      var j :| 0 <= j < |xs| && key(xs[j]) == c;
      assert xs'[j] == xs[j];
    }
    assert xs'[|xs|] == x;
  }

  /** An expense whose key already has an entry: that entry grows. */
  lemma TalliesStepHit<K>(g: seq<(K, int)>, xs: seq<Expense>, key: Expense -> K, x: Expense, p: nat)
    requires Tallies(g, xs, key)
    requires p < |g| && g[p].0 == key(x)
    ensures Tallies(g[p := (key(x), g[p].1 + x.amount)], xs + [x], key)
  {
    var xs' := xs + [x];
    var r := g[p := (key(x), g[p].1 + x.amount)];
    AppendTotals(xs, key, x);
    forall j | 0 <= j < |xs'| ensures HasKey(r, key(xs'[j])) {
      if j < |xs| {
        assert xs'[j] == xs[j];
        var i :| 0 <= i < |g| && g[i].0 == key(xs[j]);
        assert r[i].0 == g[i].0;
      } else {
        assert r[p].0 == key(x);
      }
    }
  }

  /** An expense with a new key: a new entry is appended. */
  lemma TalliesStepNew<K>(g: seq<(K, int)>, xs: seq<Expense>, key: Expense -> K, x: Expense)
    requires Tallies(g, xs, key)
    requires !HasKey(g, key(x))
    ensures Tallies(g + [(key(x), x.amount)], xs + [x], key)
  {
    var xs' := xs + [x];
    var k := key(x);
    var r := g + [(k, x.amount)];
    AppendTotals(xs, key, x);
    forall j | 0 <= j < |xs| ensures key(xs[j]) != k {
      assert HasKey(g, key(xs[j]));
    }
    KeyTotalAbsent(xs, key, k);
    forall j | 0 <= j < |xs'| ensures HasKey(r, key(xs'[j])) {
      if j < |xs| {
        assert xs'[j] == xs[j];
        var i :| 0 <= i < |g| && g[i].0 == key(xs[j]);
        assert r[i].0 == g[i].0;
      } else {
        assert r[|g|].0 == k;
      }
    }
  }

  /** One more expense keeps a correct tally correct. */
  lemma TalliesStep<K>(g: seq<(K, int)>, xs: seq<Expense>, key: Expense -> K, x: Expense)
    requires Tallies(g, xs, key)
    ensures Tallies(AddTo(g, key(x), x.amount), xs + [x], key)
  {
    match IndexOfKey(g, key(x))
    case Some(p) => TalliesStepHit(g, xs, key, x, p);
    case None => TalliesStepNew(g, xs, key, x);
  }

  /** `$group: { _id: key, total: { $sum: "$amount" } }`, entries in order of
      first appearance (the engine promises no order). */
  function GroupBy<K(==)>(xs: seq<Expense>, key: Expense -> K): (r: seq<(K, int)>)
    ensures Tallies(r, xs, key)
    ensures SumTotals(r) == Total(xs)
  {
    if |xs| == 0 then []
    else
      var front := xs[..|xs| - 1];
      var x := xs[|xs| - 1];
      var g := GroupBy(front, key);
      TalliesStep(g, front, key, x);
      assert front + [x] == xs;
      AddTo(g, key(x), x.amount)
  }

  /** Two correct tallies of the same expenses hold the same entries. */
  lemma TalliesAgree<K>(g1: seq<(K, int)>, g2: seq<(K, int)>, xs: seq<Expense>, key: Expense -> K)
    requires Tallies(g1, xs, key) && Tallies(g2, xs, key)
    ensures forall p :: p in g1 ==> p in g2
  {
    forall p | p in g1 ensures p in g2 {
      var i :| 0 <= i < |g1| && g1[i] == p;
      var j :| 0 <= j < |xs| && key(xs[j]) == p.0;
      var i2 :| 0 <= i2 < |g2| && g2[i2].0 == key(xs[j]);
      assert g2[i2] == p;
    }
  }

  /** With distinct keys every entry occurs once. */
  lemma {:induction false} DistinctMultiset<K>(g: seq<(K, int)>, p: (K, int))
    requires DistinctKeys(g)
    ensures multiset(g)[p] == if p in g then 1 else 0
  {
    if |g| > 0 {
      var n := |g|;
      assert g == g[..n - 1] + [g[n - 1]];
      assert DistinctKeys(g[..n - 1]);
      DistinctMultiset(g[..n - 1], p);
      if p == g[n - 1] {
        assert p !in g[..n - 1];
      }
    }
  }

  /** Two correct tallies of the same expenses are permutations of each other. */
  lemma TalliesPermutation<K>(g1: seq<(K, int)>, g2: seq<(K, int)>, xs: seq<Expense>, key: Expense -> K)
    requires Tallies(g1, xs, key) && Tallies(g2, xs, key)
    ensures multiset(g1) == multiset(g2)
  {
    TalliesAgree(g1, g2, xs, key);
    TalliesAgree(g2, g1, xs, key);
    forall p ensures multiset(g1)[p] == multiset(g2)[p] {
      DistinctMultiset(g1, p);
      DistinctMultiset(g2, p);
    }
  }

  // ---------------------------------------------------------------------------
  // Category breakdown
  // ---------------------------------------------------------------------------

  function CategoryOf(e: Expense): string { e.category }

  /** `getCategoryBreakdown`: one entry per distinct category among the
      requester's expenses, totalling every amount of that category whatever
      its type; the category totals add up to the requester's grand total. */
  function CategoryBreakdown(s: Store, requester: UserId): (r: seq<(string, int)>)
    ensures DistinctKeys(r)
    ensures forall i :: 0 <= i < |r| ==>
      Occurs(Owned(s, requester), CategoryOf, r[i].0)
      && r[i].1 == KeyTotal(Owned(s, requester), CategoryOf, r[i].0)
    ensures forall j :: 0 <= j < |s| && s[j].owner == requester ==> HasKey(r, s[j].category)
    ensures SumTotals(r) == Total(Owned(s, requester))
  {
    var xs := Owned(s, requester);
    var r := GroupBy(xs, CategoryOf);
    forall j | 0 <= j < |s| && s[j].owner == requester ensures HasKey(r, s[j].category) {
      assert s[j] in xs;
      var k :| 0 <= k < |xs| && xs[k] == s[j];
      assert CategoryOf(xs[k]) == s[j].category;
    }
    r
  }

  // ---------------------------------------------------------------------------
  // Monthly report
  // ---------------------------------------------------------------------------

  function MonthOf(e: Expense): Month { e.date.month }

  /** `r` lists, in strictly ascending month order, one entry for each month
      from `m` to 12 that has data, carrying that month's total. */
  ghost predicate MonthsListed(r: seq<(Month, int)>, xs: seq<Expense>, m: int) {
    && (forall i :: 0 <= i < |r| ==> m <= r[i].0)
    && (forall i, j :: 0 <= i < j < |r| ==> r[i].0 < r[j].0)
    && (forall i :: 0 <= i < |r| ==> Occurs(xs, MonthOf, r[i].0) && r[i].1 == KeyTotal(xs, MonthOf, r[i].0))
    && (forall j :: 0 <= j < |xs| && m <= xs[j].date.month ==> HasKey(r, xs[j].date.month))
  }

  /** The entries for months `m..12` that have data, in ascending month order. */
  function MonthsFrom(xs: seq<Expense>, m: int): (r: seq<(Month, int)>)
    requires 1 <= m <= 13
    ensures MonthsListed(r, xs, m)
    decreases 13 - m
  {
    if m == 13 then []
    else
      var month: Month := m;
      var rest := MonthsFrom(xs, m + 1);
      if Occurs(xs, MonthOf, month) then
        MonthsListedCons(xs, month, rest);
        [(month, KeyTotal(xs, MonthOf, month))] + rest
      else
        MonthsListedSkip(xs, month, rest);
        rest
  }

  lemma MonthsListedCons(xs: seq<Expense>, month: Month, rest: seq<(Month, int)>)
    requires MonthsListed(rest, xs, month + 1)
    requires Occurs(xs, MonthOf, month)
    ensures MonthsListed([(month, KeyTotal(xs, MonthOf, month))] + rest, xs, month)
  {
    var r := [(month, KeyTotal(xs, MonthOf, month))] + rest;
    forall i | 0 < i < |r| ensures r[i] == rest[i - 1] { }
    forall i | 0 <= i < |r| ensures month <= r[i].0 { }
    forall i, j | 0 <= i < j < |r| ensures r[i].0 < r[j].0 {
      if i > 0 { assert r[i] == rest[i - 1]; }
    }
    forall i | 0 <= i < |r|
      ensures Occurs(xs, MonthOf, r[i].0) && r[i].1 == KeyTotal(xs, MonthOf, r[i].0)
    {
      if i > 0 { assert r[i] == rest[i - 1]; }
    }
    forall j | 0 <= j < |xs| && month <= xs[j].date.month ensures HasKey(r, xs[j].date.month) {
      if xs[j].date.month == month {
        assert r[0].0 == month;
      } else {
        var i :| 0 <= i < |rest| && rest[i].0 == xs[j].date.month;
        assert r[i + 1].0 == rest[i].0;
      }
    }
  }

  lemma MonthsListedSkip(xs: seq<Expense>, month: Month, rest: seq<(Month, int)>)
    requires MonthsListed(rest, xs, month + 1)
    requires !Occurs(xs, MonthOf, month)
    ensures MonthsListed(rest, xs, month)
  {
    forall j | 0 <= j < |xs| ensures xs[j].date.month != month {
      OccursAt(xs, MonthOf, j);
    }
  }

  /** `getMonthlyReport`: group the requester's expenses by month-of-year
      (merging years) and sort ascending by month. */
  function MonthlyReport(s: Store, requester: UserId): (r: seq<(Month, int)>)
    ensures Tallies(r, Owned(s, requester), MonthOf)
    ensures forall i, j :: 0 <= i < j < |r| ==> r[i].0 < r[j].0
  {
    var xs := Owned(s, requester);
    var r := MonthsFrom(xs, 1);
    assert forall j :: 0 <= j < |xs| ==> HasKey(r, MonthOf(xs[j]));
    r
  }

  /** The monthly report is exactly the `$group` by month followed by the
      `$sort` on it: a permutation of the grouping, in ascending month order,
      and so its totals add up to the requester's grand total. */
  lemma MonthlyIsSortedGroup(s: Store, requester: UserId)
    ensures multiset(MonthlyReport(s, requester)) == multiset(GroupBy(Owned(s, requester), MonthOf))
    ensures SumTotals(MonthlyReport(s, requester)) == Total(Owned(s, requester))
  {
    var r := MonthlyReport(s, requester);
    var g := GroupBy(Owned(s, requester), MonthOf);
    TalliesPermutation(r, g, Owned(s, requester), MonthOf);
    SumTotalsPermutation(r, g);
  }

  lemma {:induction false} SumTotalsRemove<K>(b: seq<(K, int)>, k: nat)
    requires k < |b|
    ensures SumTotals(b) == SumTotals(b[..k] + b[k + 1..]) + b[k].1
  {
    var n := |b|;
    if k < n - 1 {
      var c := b[..k] + b[k + 1..];
      assert c[..|c| - 1] == b[..n - 1][..k] + b[..n - 1][k + 1..];
      assert c[|c| - 1] == b[n - 1];
      SumTotalsRemove(b[..n - 1], k);
    } else {
      assert b[..k] + b[k + 1..] == b[..n - 1];
    }
  }

  /** Reordering the entries does not change their sum. */
  lemma {:induction false} SumTotalsPermutation<K>(a: seq<(K, int)>, b: seq<(K, int)>)
    requires multiset(a) == multiset(b)
    ensures SumTotals(a) == SumTotals(b)
    decreases |a|
  {
    if |a| == 0 {
      assert |b| == |multiset(b)| == 0;
    } else {
      var n := |a|;
      var x := a[n - 1];
      assert a == a[..n - 1] + [x];
      assert x in multiset(b);
      var k :| 0 <= k < |b| && b[k] == x;
      var b' := b[..k] + b[k + 1..];
      assert b == b[..k] + [x] + b[k + 1..];
      assert multiset(b') == multiset(b) - multiset{x};
      SumTotalsPermutation(a[..n - 1], b');
      SumTotalsRemove(b, k);
    }
  }

  // ---------------------------------------------------------------------------
  // Scoping
  // ---------------------------------------------------------------------------

  /** Another user's expense changes none of a requester's three reports. */
  lemma ReportsIgnoreOthers(s: Store, requester: UserId, e: Expense)
    requires e.owner != requester
    ensures IncomeTotal(Owned(s + [e], requester)) == IncomeTotal(Owned(s, requester))
    ensures OtherTotal(Owned(s + [e], requester)) == OtherTotal(Owned(s, requester))
    ensures CategoryBreakdown(s + [e], requester) == CategoryBreakdown(s, requester)
    ensures MonthlyReport(s + [e], requester) == MonthlyReport(s, requester)
  {
    FilterConcat(s, [e], (x: Expense) => x.owner == requester);
    assert Owned(s + [e], requester) == Owned(s, requester);
  }
}

=== FILE: auth.dfy ===
/** Account handlers (controllers/authController.js) over the user collection:
    register, login, change password, the one-time-code password reset, and
    account deletion with its cascade to the expense collection. Hashing is
    the symbolic digest of Records; salts, fresh ids, the clock (`now`, in
    milliseconds) and the random OTP draw are parameters. */
module Auth {
  import opened Base
  import opened Text
  import opened Seqs
  import opened Records
  import ExpenseStore

  type Users = seq<User>

  /** A reset code stays valid for ten minutes after it is issued. */
  const OtpLifetimeMs: int := 10 * 60 * 1000

  /** A code as issued: six decimal digits, no leading zero. */
  predicate IsOtpCode(s: string) {
    |s| == 6 && AllDigits(s) && s[0] != '0'
  }

  /** A user's reset slot is either empty (both fields null) or holds an issued
      code together with its expiry. */
  predicate ResetSlotOk(u: User) {
    && (u.resetOtp.Some? <==> u.resetOtpExpiry.Some?)
    && (u.resetOtp.Some? ==> IsOtpCode(u.resetOtp.value))
  }

  /** What the collection guarantees: unique ids, unique lower-case emails
      (the unique index), schema-valid users with consistent reset slots. */
  predicate WellFormed(users: Users) {
    && (forall i, j :: 0 <= i < j < |users| ==> users[i].id != users[j].id)
    && (forall i, j :: 0 <= i < j < |users| ==> users[i].email != users[j].email)
    && (forall i :: 0 <= i < |users| ==> UserOk(users[i]))
  }

  predicate UserOk(u: User) {
    ValidUser(u) && ResetSlotOk(u)
  }

  /** Replacing a user by one with the same id, name and email, and a
      consistent reset slot, keeps the collection well-formed. */
  lemma WellFormedUpdate(users: Users, i: nat, u: User)
    requires WellFormed(users) && i < |users|
    requires u.id == users[i].id && u.email == users[i].email && u.name == users[i].name
    requires ResetSlotOk(u)
    ensures WellFormed(users[i := u])
  {
    assert ValidUser(u) by { assert ValidUser(users[i]); }
    var users' := users[i := u];
    forall j | 0 <= j < |users'| ensures UserOk(users'[j]) {
      if j != i { assert users'[j] == users[j]; }
    }
  }

  /** Appending a valid user whose id and email are new keeps the collection well-formed. */
  lemma WellFormedAppend(users: Users, u: User)
    requires WellFormed(users) && UserOk(u)
    requires forall j :: 0 <= j < |users| ==> users[j].id != u.id && users[j].email != u.email
    ensures WellFormed(users + [u])
  {
    var users' := users + [u];
    forall j | 0 <= j < |users'| ensures users'[j] == if j < |users| then users[j] else u { }
    forall i, j | 0 <= i < j < |users'|
      ensures users'[i].id != users'[j].id && users'[i].email != users'[j].email
    {
      assert users'[i] == users[i];
    }
    forall j | 0 <= j < |users'| ensures UserOk(users'[j]) {
      if j < |users| { assert users'[j] == users[j]; }
    }
  }

  /** Removing a user keeps the collection well-formed. */
  lemma WellFormedRemove(users: Users, i: nat)
    requires WellFormed(users) && i < |users|
    ensures WellFormed(RemoveAt(users, i))
  {
    var users' := RemoveAt(users, i);
    forall j | 0 <= j < |users'| ensures UserOk(users'[j]) {
      if j < i { assert users'[j] == users[j]; } else { assert users'[j] == users[j + 1]; }
    }
  }

  datatype AuthError =
    | UserExists            // 400 "User already exists"
    | InvalidCredentials    // 400 "Invalid credentials"
    | UserNotFound          // 404 "User not found"
    | OldPasswordIncorrect  // 400 "Old password incorrect"
    | NoAccount             // 404 "No account found with this email"
    | NoOtpRequested        // 400 "No OTP requested. Please request a new one."
    | OtpExpired            // 400 "OTP has expired. Please request a new one."
    | InvalidOtp            // 400 "Invalid OTP"
    | IncorrectPassword     // 400 "Incorrect password"
    | Rejected              // 500, a schema or index violation reported by the store

  function Status(e: AuthError): nat {
    match e
    case UserNotFound => 404
    case NoAccount => 404
    case Rejected => 500
    case _ => 400
  }

  /** The fields a register or login answer carries (the signed token is left out). */
  datatype Account = Account(id: UserId, name: string, email: string)

  /** The user collection after a handler ran, and what the handler answered. */
  datatype Step<T> = Step(users: Users, result: Result<T, AuthError>)

  // ---------------------------------------------------------------------------
  // Lookups
  // ---------------------------------------------------------------------------

  /** `User.findOne({ email })`: the first user with that stored email. */
  function FindByEmail(users: Users, email: string): (r: Option<nat>)
    ensures r.Some? ==> r.value < |users| && users[r.value].email == email
    ensures r.None? <==> forall j :: 0 <= j < |users| ==> users[j].email != email
  {
    if |users| == 0 then None
    else if users[0].email == email then Some(0)
    else match FindByEmail(users[1..], email)
      case None => None
      case Some(k) => Some(k + 1)
  }

  /** `User.findById(id)`. */
  function FindById(users: Users, id: UserId): (r: Option<nat>)
    ensures r.Some? ==> r.value < |users| && users[r.value].id == id
    ensures r.None? <==> forall j :: 0 <= j < |users| ==> users[j].id != id
  {
    if |users| == 0 then None
    else if users[0].id == id then Some(0)
    else match FindById(users[1..], id)
      case None => None
      case Some(k) => Some(k + 1)
  }

  lemma FindByEmailUnique(users: Users, i: nat)
    requires WellFormed(users) && i < |users|
    ensures FindByEmail(users, users[i].email) == Some(i)
  {
  }

  lemma FindByIdUnique(users: Users, i: nat)
    requires WellFormed(users) && i < |users|
    ensures FindById(users, users[i].id) == Some(i)
  {
  }

  /** Replacing a user by one with the same email and id leaves both lookups as they were. */
  lemma LookupsAfterUpdate(users: Users, i: nat, u: User, email: string, id: UserId)
    requires i < |users| && u.email == users[i].email && u.id == users[i].id
    ensures FindByEmail(users[i := u], email) == FindByEmail(users, email)
    ensures FindById(users[i := u], id) == FindById(users, id)
  {
    if i > 0 && |users| > 0 {
      assert users[i := u][1..] == users[1..][i - 1 := u];
      LookupsAfterUpdate(users[1..], i - 1, u, email, id);
    }
  }

  // ---------------------------------------------------------------------------
  // Register and login
  // ---------------------------------------------------------------------------

  /** `registerUser`: 400 if the (lower-cased) email is taken; otherwise create
      the user with the hashed password. The lookup goes through the schema's
      `lowercase` setter, so emails differing only in case collide. */
  function Register(users: Users, name: string, email: string, password: string, salt: nat, id: UserId): (r: Step<Account>)
    ensures FindByEmail(users, Lower(email)).Some? ==> r == Step(users, Err(UserExists))
    ensures r.result.Err? ==> r.users == users
    ensures r.result.Ok? <==>
      FindByEmail(users, Lower(email)).None? && Trim(name) != "" && email != "" && FindById(users, id).None?
    ensures r.result.Ok? ==>
      |r.users| == |users| + 1 && r.users[..|users|] == users
      && var u := r.users[|users|];
         && u.id == id && u.name == Trim(name) && u.email == Lower(email)
         && Matches(password, u.password)
         && u.resetOtp.None? && u.resetOtpExpiry.None? && u.preferences == DefaultPreferences
         && r.result.value == Account(id, u.name, u.email)
  {
    match FindByEmail(users, Lower(email))
    case Some(_) => Step(users, Err(UserExists))
    case None =>
      match CreateUser(id, name, email, HashPassword(password, salt))
      case None => Step(users, Err(Rejected))
      case Some(u) =>
        if FindById(users, id).Some? then Step(users, Err(Rejected))
        else
          assert (users + [u])[..|users|] == users;
          Step(users + [u], Ok(Account(u.id, u.name, u.email)))
  }

  lemma RegisterPreserves(users: Users, name: string, email: string, password: string, salt: nat, id: UserId)
    requires WellFormed(users)
    ensures WellFormed(Register(users, name, email, password, salt, id).users)
  {
    var r := Register(users, name, email, password, salt, id);
    if r.result.Ok? {
      var u := CreateUser(id, name, email, HashPassword(password, salt)).value;
      assert r.users == users + [u];
      WellFormedAppend(users, u);
    }
  }

  /** Emails are unique whatever their case: once registered, any email with
      the same lower-case form is refused and nothing is created. */
  lemma RegisterTwiceFails(users: Users, name: string, email: string, password: string, salt: nat, id: UserId,
                           name2: string, email2: string, password2: string, salt2: nat, id2: UserId)
    requires Register(users, name, email, password, salt, id).result.Ok?
    requires Lower(email2) == Lower(email)
    ensures var users' := Register(users, name, email, password, salt, id).users;
      Register(users', name2, email2, password2, salt2, id2) == Step(users', Err(UserExists))
  {
    var users' := Register(users, name, email, password, salt, id).users;
    assert users'[|users|].email == Lower(email2);
  }

  /** `loginUser`: succeeds exactly when the email is registered and the
      password matches its hash; both failures give the same answer. */
  function Login(users: Users, email: string, password: string): (r: Result<Account, AuthError>)
    ensures r.Err? ==> r.error == InvalidCredentials
    ensures r.Ok? <==>
      FindByEmail(users, Lower(email)).Some? && Matches(password, users[FindByEmail(users, Lower(email)).value].password)
    ensures r.Ok? ==>
      var u := users[FindByEmail(users, Lower(email)).value];
      r.value == Account(u.id, u.name, u.email)
  {
    match FindByEmail(users, Lower(email))
    case None => Err(InvalidCredentials)
    case Some(i) =>
      if !Matches(password, users[i].password) then Err(InvalidCredentials)
      else Ok(Account(users[i].id, users[i].name, users[i].email))
  }

  /** On a well-formed collection, login succeeds iff some user has the
      lower-cased email and a hash the password matches. */
  lemma LoginIff(users: Users, email: string, password: string)
    requires WellFormed(users)
    ensures Login(users, email, password).Ok? <==>
      exists i :: 0 <= i < |users| && users[i].email == Lower(email) && Matches(password, users[i].password)
  {
    if exists i :: 0 <= i < |users| && users[i].email == Lower(email) && Matches(password, users[i].password) {
      var i :| 0 <= i < |users| && users[i].email == Lower(email) && Matches(password, users[i].password);
      FindByEmailUnique(users, i);
    }
  }

  /** A fresh registration can log in with its password, in any letter case of the email. */
  lemma RegisterThenLogin(users: Users, name: string, email: string, password: string, salt: nat, id: UserId, email2: string)
    requires WellFormed(users)
    requires Register(users, name, email, password, salt, id).result.Ok?
    requires Lower(email2) == Lower(email)
    ensures Login(Register(users, name, email, password, salt, id).users, email2, password).Ok?
  {
    var users' := Register(users, name, email, password, salt, id).users;
    RegisterPreserves(users, name, email, password, salt, id);
    FindByEmailUnique(users', |users|);
  }

  // ---------------------------------------------------------------------------
  // Change password
  // ---------------------------------------------------------------------------

  /** `changePassword`: 404 for an unknown requester, 400 if the old password
      does not match; otherwise store the hash of the new one. */
  function ChangePassword(users: Users, requester: UserId, oldPassword: string, newPassword: string, salt: nat): (r: Step<()>)
    ensures r.result.Err? ==> r.users == users
    ensures FindById(users, requester).None? ==> r.result == Err(UserNotFound)
    ensures FindById(users, requester).Some? ==>
      var i := FindById(users, requester).value;
      && (r.result.Ok? <==> Matches(oldPassword, users[i].password))
      && (r.result.Err? ==> r.result == Err(OldPasswordIncorrect))
      && (r.result.Ok? ==>
            && |r.users| == |users| && r.users == users[i := r.users[i]]
            && r.users[i] == users[i].(password := r.users[i].password)
            && Matches(newPassword, r.users[i].password))
  {
    match FindById(users, requester)
    case None => Step(users, Err(UserNotFound))
    case Some(i) =>
      if !Matches(oldPassword, users[i].password) then Step(users, Err(OldPasswordIncorrect))
      else Step(users[i := users[i].(password := HashPassword(newPassword, salt))], Ok(()))
  }

  lemma ChangePasswordPreserves(users: Users, requester: UserId, oldPassword: string, newPassword: string, salt: nat)
    requires WellFormed(users)
    ensures WellFormed(ChangePassword(users, requester, oldPassword, newPassword, salt).users)
  {
    var r := ChangePassword(users, requester, oldPassword, newPassword, salt);
    if r.result.Ok? {
      var i := FindById(users, requester).value;
      assert UserOk(users[i]);
      WellFormedUpdate(users, i, r.users[i]);
    }
  }

  // ---------------------------------------------------------------------------
  // One-time-code password reset
  // ---------------------------------------------------------------------------

  /** `Math.floor(100000 + Math.random() * 900000).toString()`, with the random
      draw reduced to one of the 900000 possible codes. */
  function IssuedCode(draw: nat): (r: string)
    ensures IsOtpCode(r)
    ensures DecimalValue(r) == 100000 + draw % 900000
  {
    var n := 100000 + draw % 900000;
    SixDigitDecimal(n);
    DecimalRoundTrip(n);
    Decimal(n)
  }

  /** Different draws modulo 900000 give different codes. */
  lemma IssuedCodeInjective(d1: nat, d2: nat)
    requires d1 % 900000 != d2 % 900000
    ensures IssuedCode(d1) != IssuedCode(d2)
  {
  }

  /** `forgotPassword`: 404 for an unknown (lower-cased) email; otherwise fill
      the reset slot with a fresh code expiring ten minutes from `now`,
      replacing any earlier code. */
  function ForgotPassword(users: Users, email: string, now: int, draw: nat): (r: Step<()>)
    ensures FindByEmail(users, Lower(email)).None? <==> r.result.Err?
    ensures r.result.Err? ==> r == Step(users, Err(NoAccount))
    ensures r.result.Ok? ==>
      var i := FindByEmail(users, Lower(email)).value;
      && |r.users| == |users| && r.users == users[i := r.users[i]]
      && r.users[i] == users[i].(resetOtp := r.users[i].resetOtp, resetOtpExpiry := r.users[i].resetOtpExpiry)
      && r.users[i].resetOtp == Some(IssuedCode(draw))
      && r.users[i].resetOtpExpiry == Some(now + OtpLifetimeMs)
      && 100000 <= DecimalValue(r.users[i].resetOtp.value) <= 999999
  {
    match FindByEmail(users, Lower(email))
    case None => Step(users, Err(NoAccount))
    case Some(i) =>
      Step(users[i := users[i].(resetOtp := Some(IssuedCode(draw)), resetOtpExpiry := Some(now + OtpLifetimeMs))], Ok(()))
  }

  lemma ForgotPasswordPreserves(users: Users, email: string, now: int, draw: nat)
    requires WellFormed(users)
    ensures WellFormed(ForgotPassword(users, email, now, draw).users)
  {
    var r := ForgotPassword(users, email, now, draw);
    if r.result.Ok? {
      var i := FindByEmail(users, Lower(email)).value;
      WellFormedUpdate(users, i, r.users[i]);
    }
  }

  /** `resetPassword`, its checks in source order: unknown email (404); no
      code or no expiry stored (400); `now` past the expiry (400, and the slot
      is cleared); trimmed codes differ (400); otherwise set the new password
      and clear the slot. At `now` equal to the expiry the code is still good. */
  function ResetPassword(users: Users, email: string, otp: string, newPassword: string, now: int, salt: nat): (r: Step<()>)
    ensures FindByEmail(users, Lower(email)).None? ==> r == Step(users, Err(UserNotFound))
    ensures FindByEmail(users, Lower(email)).Some? ==>
      var i := FindByEmail(users, Lower(email)).value;
      var u := users[i];
      var requested := u.resetOtp.Some? && u.resetOtp.value != "" && u.resetOtpExpiry.Some?;
      && (!requested ==> r == Step(users, Err(NoOtpRequested)))
      && (requested && now > u.resetOtpExpiry.value ==>
            r == Step(users[i := u.(resetOtp := None, resetOtpExpiry := None)], Err(OtpExpired)))
      && (requested && now <= u.resetOtpExpiry.value && Trim(u.resetOtp.value) != Trim(otp) ==>
            r == Step(users, Err(InvalidOtp)))
      && (r.result.Ok? <==>
            requested && now <= u.resetOtpExpiry.value && Trim(u.resetOtp.value) == Trim(otp))
      && (r.result.Ok? ==>
            && |r.users| == |users| && r.users == users[i := r.users[i]]
            && Matches(newPassword, r.users[i].password)
            && r.users[i] == u.(password := r.users[i].password, resetOtp := None, resetOtpExpiry := None))
  {
    match FindByEmail(users, Lower(email))
    case None => Step(users, Err(UserNotFound))
    case Some(i) =>
      var u := users[i];
      if u.resetOtp.None? || u.resetOtp.value == "" || u.resetOtpExpiry.None? then
        Step(users, Err(NoOtpRequested))
      else if now > u.resetOtpExpiry.value then
        Step(users[i := u.(resetOtp := None, resetOtpExpiry := None)], Err(OtpExpired))
      else if Trim(u.resetOtp.value) != Trim(otp) then
        Step(users, Err(InvalidOtp))
      else
        Step(users[i := u.(password := HashPassword(newPassword, salt), resetOtp := None, resetOtpExpiry := None)], Ok(()))
  }

  lemma ResetPasswordPreserves(users: Users, email: string, otp: string, newPassword: string, now: int, salt: nat)
    requires WellFormed(users)
    ensures WellFormed(ResetPassword(users, email, otp, newPassword, now, salt).users)
  {
    var r := ResetPassword(users, email, otp, newPassword, now, salt);
    if r.users != users {
      var i := FindByEmail(users, Lower(email)).value;
      assert |r.users| == |users| && r.users == users[i := r.users[i]];
      WellFormedUpdate(users, i, r.users[i]);
    }
  }

  /** With a code pending and not yet expired, a reset succeeds exactly for that
      code, give or take surrounding whitespace, and any other code is refused
      as invalid without changing anything. */
  lemma ResetWithPendingCode(users: Users, i: nat, email: string, code: string, expiry: int,
                             otp: string, newPassword: string, now: int, salt: nat)
    requires FindByEmail(users, Lower(email)) == Some(i)
    requires users[i].resetOtp == Some(code) && users[i].resetOtpExpiry == Some(expiry)
    requires IsOtpCode(code) && now <= expiry
    ensures var r := ResetPassword(users, email, otp, newPassword, now, salt);
      && (Trim(otp) == code ==> r.result.Ok?)
      && (Trim(otp) != code ==> r == Step(users, Err(InvalidOtp)))
  {
    assert code != "";
    assert NoSpaces(code) by {
      forall k | 0 <= k < |code| ensures !IsSpace(code[k]) {
        assert IsDigit(code[k]);
      }
    }
    TrimNoSpaces(code);
  }

  /** Within ten minutes of a request, the issued code (with any surrounding
      whitespace) resets the password; any other code is refused as invalid
      and changes nothing. */
  lemma ForgotThenReset(users: Users, email: string, now: int, draw: nat,
                        otp: string, newPassword: string, later: int, salt: nat)
    requires ForgotPassword(users, email, now, draw).result.Ok?
    requires later <= now + OtpLifetimeMs
    ensures var users' := ForgotPassword(users, email, now, draw).users;
      var r := ResetPassword(users', email, otp, newPassword, later, salt);
      && (Trim(otp) == IssuedCode(draw) ==> r.result.Ok?)
      && (Trim(otp) != IssuedCode(draw) ==> r == Step(users', Err(InvalidOtp)))
  {
    var users' := ForgotPassword(users, email, now, draw).users;
    var i := FindByEmail(users, Lower(email)).value;
    LookupsAfterUpdate(users, i, users'[i], Lower(email), 0);
    ResetWithPendingCode(users', i, email, IssuedCode(draw), now + OtpLifetimeMs, otp, newPassword, later, salt);
  }

  /** A second request replaces the first code: the first one is then invalid. */
  lemma SecondRequestSupersedes(users: Users, email: string, now1: int, draw1: nat, now2: int, draw2: nat,
                                newPassword: string, later: int, salt: nat)
    requires ForgotPassword(users, email, now1, draw1).result.Ok?
    requires draw1 % 900000 != draw2 % 900000
    requires later <= now2 + OtpLifetimeMs
    ensures var users1 := ForgotPassword(users, email, now1, draw1).users;
      var users2 := ForgotPassword(users1, email, now2, draw2).users;
      ResetPassword(users2, email, IssuedCode(draw1), newPassword, later, salt) == Step(users2, Err(InvalidOtp))
  {
    var users1 := ForgotPassword(users, email, now1, draw1).users;
    var i := FindByEmail(users, Lower(email)).value;
    LookupsAfterUpdate(users, i, users1[i], Lower(email), 0);
    IssuedCodeInjective(draw1, draw2);
    TrimNoSpaces(IssuedCode(draw1));
    ForgotThenReset(users1, email, now2, draw2, IssuedCode(draw1), newPassword, later, salt);
  }

  /** After the ten minutes, even the right code is refused and the slot is
      cleared, so a retry reports that no code was requested. */
  lemma ExpiredCodeFails(users: Users, email: string, now: int, draw: nat,
                         otp: string, newPassword: string, later: int, salt: nat,
                         otp2: string, newPassword2: string, later2: int, salt2: nat)
    requires ForgotPassword(users, email, now, draw).result.Ok?
    requires later > now + OtpLifetimeMs
    ensures var users' := ForgotPassword(users, email, now, draw).users;
      var r := ResetPassword(users', email, otp, newPassword, later, salt);
      && r.result == Err(OtpExpired)
      && ResetPassword(r.users, email, otp2, newPassword2, later2, salt2).result == Err(NoOtpRequested)
  {
    var users' := ForgotPassword(users, email, now, draw).users;
    var i := FindByEmail(users, Lower(email)).value;
    LookupsAfterUpdate(users, i, users'[i], Lower(email), 0);
    var r := ResetPassword(users', email, otp, newPassword, later, salt);
    LookupsAfterUpdate(users', i, r.users[i], Lower(email), 0);
  }

  /** A successful reset consumes the code: replaying any code afterwards
      reports that no code was requested, and the new password is in force. */
  lemma ResetIsSingleUse(users: Users, email: string, otp: string, newPassword: string, now: int, salt: nat,
                         otp2: string, newPassword2: string, later: int, salt2: nat)
    requires ResetPassword(users, email, otp, newPassword, now, salt).result.Ok?
    ensures var users' := ResetPassword(users, email, otp, newPassword, now, salt).users;
      && ResetPassword(users', email, otp2, newPassword2, later, salt2) == Step(users', Err(NoOtpRequested))
      && Login(users', email, newPassword).Ok?
  {
    var users' := ResetPassword(users, email, otp, newPassword, now, salt).users;
    var i := FindByEmail(users, Lower(email)).value;
    LookupsAfterUpdate(users, i, users'[i], Lower(email), 0);
  }

  // ---------------------------------------------------------------------------
  // Delete account
  // ---------------------------------------------------------------------------

  datatype Deletion = Deletion(users: Users, expenses: ExpenseStore.Store, result: Result<(), AuthError>)

  /** `deleteAccount`: 404 for an unknown requester, 400 if the password does
      not match; otherwise delete every expense the requester owns, then the
      requester. */
  function DeleteAccount(users: Users, expenses: ExpenseStore.Store, requester: UserId, password: string): (r: Deletion)
    ensures r.result.Err? ==> r.users == users && r.expenses == expenses
    ensures FindById(users, requester).None? ==> r.result == Err(UserNotFound)
    ensures FindById(users, requester).Some? ==>
      var i := FindById(users, requester).value;
      && (r.result.Ok? <==> Matches(password, users[i].password))
      && (r.result.Err? ==> r.result == Err(IncorrectPassword))
      && (r.result.Ok? ==>
            && r.users == users[..i] + users[i + 1..]
            && (forall j :: 0 <= j < |r.expenses| ==> r.expenses[j].owner != requester && r.expenses[j] in expenses)
            && (forall j :: 0 <= j < |expenses| && expenses[j].owner != requester ==> expenses[j] in r.expenses))
  {
    match FindById(users, requester)
    case None => Deletion(users, expenses, Err(UserNotFound))
    case Some(i) =>
      if !Matches(password, users[i].password) then Deletion(users, expenses, Err(IncorrectPassword))
      else Deletion(RemoveAt(users, i), Filter(expenses, (e: Expense) => e.owner != requester), Ok(()))
  }

  /** After a deletion the account is gone for good: neither its id nor its
      email resolves, so the old credentials no longer sign in; the collection
      stays well-formed, and the other users' expenses are kept in order. */
  lemma DeleteAccountPreserves(users: Users, expenses: ExpenseStore.Store, requester: UserId, password: string)
    requires WellFormed(users)
    ensures var r := DeleteAccount(users, expenses, requester, password);
      && WellFormed(r.users)
      && (r.result.Ok? ==>
            && FindById(r.users, requester).None?
            && FindByEmail(r.users, users[FindById(users, requester).value].email).None?
            && Login(r.users, users[FindById(users, requester).value].email, password).Err?
            && r.expenses == Filter(expenses, (e: Expense) => e.owner != requester))
  {
    var r := DeleteAccount(users, expenses, requester, password);
    if r.result.Ok? {
      var i := FindById(users, requester).value;
      var email := users[i].email;
      WellFormedRemove(users, i);
      assert r.users == RemoveAt(users, i);
      forall j | 0 <= j < |r.users| ensures r.users[j].id != requester && r.users[j].email != email {
        if j < i { assert r.users[j] == users[j]; } else { assert r.users[j] == users[j + 1]; }
      }
      assert UserOk(users[i]);
      LowerOfLowerCase(email);
    }
  }
}

=== FILE: base.dfy ===
/** Failure-carrying wrappers shared by every module of the model. The source
    signals absence with `null`/`undefined` and failure with an HTTP status;
    here both become explicit values. */
module Base {

  /** A value that may be absent (`null` or a field left out of a request body). */
  datatype Option<+T> = None | Some(value: T) {
    function GetOr(default: T): T {
      match this
      case Some(v) => v
      case None => default
    }
  }

  /** The outcome of an operation: a value, or the error the handler reports. */
  datatype Result<+T, +E> = Ok(value: T) | Err(error: E)
}

=== FILE: change_password_form.dfy ===
/** The change-password page's submit handler (pages/ChangePassword.jsx): two
    checks on the new password, then the request to the server. */
module ChangePasswordForm {
  import opened Base
  import opened Text
  import opened Records
  import Auth

  datatype Form = Form(oldPassword: string, newPassword: string, confirmPassword: string)

  /** A refusal shown to the user, or the body of the `PUT /auth/change-password` request. */
  datatype Outcome =
    | Mismatch        // "New passwords don't match"
    | TooShort        // "Password must be at least 6 characters"
    | SendChange(oldPassword: string, newPassword: string)

  /** `handlePasswordChange`: the confirmation is compared first, the length
      second; the old password is passed on unchecked. */
  function Submit(f: Form): (r: Outcome)
    ensures r.SendChange? <==> f.newPassword == f.confirmPassword && |f.newPassword| >= 6
    ensures f.newPassword != f.confirmPassword ==> r == Mismatch
    ensures f.newPassword == f.confirmPassword && |f.newPassword| < 6 ==> r == TooShort
    ensures r.SendChange? ==> r.oldPassword == f.oldPassword && r.newPassword == f.newPassword
  {
    if f.newPassword != f.confirmPassword then Mismatch
    else if |f.newPassword| < 6 then TooShort
    else SendChange(f.oldPassword, f.newPassword)
  }

  /** Whether a request is sent never depends on the old password, and a
      short password that also mismatches is reported as a mismatch. */
  lemma OldPasswordUnchecked(f: Form, other: string)
    ensures Submit(f).SendChange? <==> Submit(f.(oldPassword := other)).SendChange?
    ensures f.newPassword != f.confirmPassword && |f.newPassword| < 6 ==> Submit(f) == Mismatch
  {
  }

  /** A sent form whose old password is right changes the stored password,
      and the user can then sign in with what they typed as confirmation. */
  lemma SubmitThenLogin(users: Auth.Users, requester: UserId, f: Form, salt: nat)
    requires Auth.WellFormed(users)
    requires Submit(f).SendChange?
    requires Auth.FindById(users, requester).Some?
    requires Matches(f.oldPassword, users[Auth.FindById(users, requester).value].password)
    ensures var o := Submit(f);
      var r := Auth.ChangePassword(users, requester, o.oldPassword, o.newPassword, salt);
      var i := Auth.FindById(users, requester).value;
      && r.result.Ok?
      && Auth.Login(r.users, users[i].email, f.confirmPassword).Ok?
  {
    var o := Submit(f);
    var r := Auth.ChangePassword(users, requester, o.oldPassword, o.newPassword, salt);
    var i := Auth.FindById(users, requester).value;
    assert Auth.UserOk(users[i]);
    LowerOfLowerCase(users[i].email);
    Auth.FindByEmailUnique(users, i);
    Auth.LookupsAfterUpdate(users, i, r.users[i], users[i].email, requester);
  }
}

=== FILE: dashboard.dfy ===
/** The dashboard page's client logic (pages/Dashboard.jsx): the list it
    loads, the search / type / date filters followed by the chosen sort, and
    the guards of the two pagination buttons. Rendering, toasts and the
    summary cards are not modelled. */
module Dashboard {
  import opened Base
  import opened Text
  import opened Seqs
  import opened Records
  import opened ExpenseStore

  // ---------------------------------------------------------------------------
  // Loading the list
  // ---------------------------------------------------------------------------

  /** The body of a `GET /expenses` answer: either a bare array of documents,
      which is what `getExpenses` sends, or the paged envelope
      `{ expenses, totalPages }` the page reads. */
  datatype ListBody = PlainArray(items: seq<Expense>) | Paged(expenses: seq<Expense>, totalPages: int)

  /** What the backend answers the dashboard's request with. */
  function ServerAnswer(s: Store, requester: UserId): ListBody {
    PlainArray(GetExpenses(s, requester))
  }

  /** The list and page count the page keeps in its state. */
  datatype Loaded = Loaded(items: seq<Expense>, totalPages: int)

  /** As written: `data?.expenses || []` and `data?.totalPages || 1`. A bare
      array has neither property, so it is read as an empty list. */
  function LoadAsWritten(b: ListBody): (r: Loaded)
    ensures b.PlainArray? ==> r.items == [] && r.totalPages == 1
    ensures b.Paged? ==> r.items == b.expenses
  {
    match b
    case PlainArray(_) => Loaded([], 1)
    case Paged(xs, t) => Loaded(xs, if t == 0 then 1 else t)
  }

  /** As written, the dashboard lists nothing even when the requester has
      expenses: one stored expense of user 0 is enough to show it. */
  lemma DashboardDropsPlainArray()
    ensures var s := [Expense(0, 0, 250, Spending, "food", None, Date(0, 1))];
      && GetExpenses(s, 0) != []
      && LoadAsWritten(ServerAnswer(s, 0)).items == []
  {
    var s := [Expense(0, 0, 250, Spending, "food", None, Date(0, 1))];
    assert s[0] in GetExpenses(s, 0);
  }

  /** Corrected: a bare array is the list itself (on one page); the paged
      envelope is read as before. */
  function Load(b: ListBody): (r: Loaded)
    ensures b.PlainArray? ==> r.items == b.items && r.totalPages == 1
    ensures b.Paged? ==> LoadAsWritten(b) == r
  {
    match b
    case PlainArray(xs) => Loaded(xs, 1)
    case Paged(xs, t) => Loaded(xs, if t == 0 then 1 else t)
  }

  /** With the corrected reading the page holds exactly what `getExpenses`
      answered: the requester's expenses, newest first. */
  lemma LoadServerAnswer(s: Store, requester: UserId)
    ensures var l := Load(ServerAnswer(s, requester));
      && multiset(l.items) == multiset(Owned(s, requester))
      && (forall i :: 0 <= i < |l.items| ==> l.items[i] in s && l.items[i].owner == requester)
      && (forall i :: 0 <= i < |s| && s[i].owner == requester ==> s[i] in l.items)
      && (forall i, j :: 0 <= i < j < |l.items| ==> l.items[i].date.millis >= l.items[j].date.millis)
      && l.totalPages == 1
  {
  }

  // ---------------------------------------------------------------------------
  // Filtering and sorting
  // ---------------------------------------------------------------------------

  /** The filter bar. A date bound is the instant `new Date(day)` denotes, and
      an empty date input is `None`. */
  datatype Controls = Controls(
    search: string,
    filterType: string,
    startDate: Option<int>,
    endDate: Option<int>,
    sortType: string)

  /** First filter: the lower-cased category contains the lower-cased search text. */
  predicate MatchesSearch(e: Expense, search: string) {
    Contains(Lower(e.category), Lower(search))
  }

  /** Second filter: "all", or exactly the item's `type`. */
  predicate MatchesType(e: Expense, filterType: string) {
    if filterType == "all" then true else KindName(e.kind) == filterType
  }

  /** Third filter, in the source's branch order. */
  predicate InDateRange(e: Expense, startDate: Option<int>, endDate: Option<int>) {
    if startDate.None? && endDate.None? then true
    else if startDate.Some? && e.date.millis < startDate.value then false
    else if endDate.Some? && e.date.millis > endDate.value then false
    else true
  }

  /** An item is listed when its category contains the search text ignoring
      case, its type is the selected one (or "all" is selected), and its date
      lies between the bounds that are set, both inclusive. */
  predicate Shown(e: Expense, c: Controls) {
    && Contains(Lower(e.category), Lower(c.search))
    && (c.filterType == "all" || KindName(e.kind) == c.filterType)
    && (c.startDate.None? || c.startDate.value <= e.date.millis)
    && (c.endDate.None? || e.date.millis <= c.endDate.value)
  }

  /** The comparator of the chosen sort, as the key it compares; an unknown
      sort answers 0 for every pair. */
  function SortKey(sortType: string): Expense -> int {
    if sortType == "latest" then (e: Expense) => -e.date.millis
    else if sortType == "oldest" then (e: Expense) => e.date.millis
    else if sortType == "amount-high" then (e: Expense) => -e.amount
    else if sortType == "amount-low" then (e: Expense) => e.amount
    else (e: Expense) => 0
  }

  /** The order each sort choice promises. */
  predicate OrderedFor(r: seq<Expense>, sortType: string) {
    && (sortType == "latest" ==> forall i, j :: 0 <= i < j < |r| ==> r[i].date.millis >= r[j].date.millis)
    && (sortType == "oldest" ==> forall i, j :: 0 <= i < j < |r| ==> r[i].date.millis <= r[j].date.millis)
    && (sortType == "amount-high" ==> forall i, j :: 0 <= i < j < |r| ==> r[i].amount >= r[j].amount)
    && (sortType == "amount-low" ==> forall i, j :: 0 <= i < j < |r| ==> r[i].amount <= r[j].amount)
  }

  lemma SortKeyOrder(r: seq<Expense>, sortType: string)
    requires SortedBy(r, SortKey(sortType))
    ensures OrderedFor(r, sortType)
  {
    var key := SortKey(sortType);
    assert forall i, j :: 0 <= i < j < |r| ==> key(r[i]) <= key(r[j]);
  }

  /** Each sort choice orders as it promises, and a choice the comparator
      does not know keeps the filtered order (the sort is stable). */
  lemma SortChoice(s: seq<Expense>, sortType: string)
    ensures OrderedFor(SortBy(s, SortKey(sortType)), sortType)
    ensures sortType !in {"latest", "oldest", "amount-high", "amount-low"} ==> SortBy(s, SortKey(sortType)) == s
  {
    SortKeyOrder(SortBy(s, SortKey(sortType)), sortType);
    if sortType !in {"latest", "oldest", "amount-high", "amount-low"} {
      SortByConstant(s, SortKey(sortType), 0);
    }
  }

  /** The three filters as the callbacks passed to `filter`. */
  function BySearch(search: string): Expense -> bool { (e: Expense) => MatchesSearch(e, search) }
  function ByType(filterType: string): Expense -> bool { (e: Expense) => MatchesType(e, filterType) }
  function ByDate(startDate: Option<int>, endDate: Option<int>): Expense -> bool {
    (e: Expense) => InDateRange(e, startDate, endDate)
  }
  function ByControls(c: Controls): Expense -> bool { (e: Expense) => Shown(e, c) }

  /** `filteredExpenses`: the three filters in turn, then the sort. */
  function FilteredExpenses(xs: seq<Expense>, c: Controls): (r: seq<Expense>)
    ensures forall i :: 0 <= i < |r| ==> r[i] in xs && Shown(r[i], c)
    ensures forall i :: 0 <= i < |xs| && Shown(xs[i], c) ==> xs[i] in r
    ensures multiset(r) == multiset(Filter(xs, ByControls(c)))
    ensures OrderedFor(r, c.sortType)
    ensures c.sortType !in {"latest", "oldest", "amount-high", "amount-low"} ==> r == Filter(xs, ByControls(c))
  {
    var dated := Filter(Filter(Filter(xs, BySearch(c.search)), ByType(c.filterType)), ByDate(c.startDate, c.endDate));
    PipelineIsOneFilter(xs, c);
    SortChoice(dated, c.sortType);
    SortedShown(xs, c);
    SortBy(dated, SortKey(c.sortType))
  }

  /** Sorting the shown items keeps exactly the shown items. */
  lemma SortedShown(xs: seq<Expense>, c: Controls)
    ensures var r := SortBy(Filter(xs, ByControls(c)), SortKey(c.sortType));
      && (forall i :: 0 <= i < |r| ==> r[i] in xs && Shown(r[i], c))
      && (forall i :: 0 <= i < |xs| && Shown(xs[i], c) ==> xs[i] in r)
  {
    var f := Filter(xs, ByControls(c));
    SameElements(SortBy(f, SortKey(c.sortType)), f);
    ShownMembers(xs, c);
  }

  /** The members of the single filter are the shown members of the input. */
  lemma ShownMembers(xs: seq<Expense>, c: Controls)
    ensures forall x :: x in Filter(xs, ByControls(c)) <==> x in xs && Shown(x, c)
  {
    var f := Filter(xs, ByControls(c));
    forall x | x in f ensures x in xs && Shown(x, c) {
      var i :| 0 <= i < |f| && f[i] == x;
      assert ByControls(c)(f[i]);
    }
    forall x | x in xs && Shown(x, c) ensures x in f {
      var i :| 0 <= i < |xs| && xs[i] == x;
      assert ByControls(c)(xs[i]);
    }
  }

  /** The three successive filters keep exactly the shown items, in order. */
  lemma {:induction false} PipelineIsOneFilter(xs: seq<Expense>, c: Controls)
    ensures Filter(Filter(Filter(xs, BySearch(c.search)), ByType(c.filterType)), ByDate(c.startDate, c.endDate))
         == Filter(xs, ByControls(c))
  {
    if |xs| > 0 {
      PipelineIsOneFilter(xs[1..], c);
      ShownIff(xs[0], c);
    }
  }

  /** The source's three filters, taken together, are `Shown`: in particular
      with both dates empty every date passes, and an empty search text
      matches every category. */
  lemma ShownIff(e: Expense, c: Controls)
    ensures Shown(e, c) <==>
      MatchesSearch(e, c.search) && MatchesType(e, c.filterType) && InDateRange(e, c.startDate, c.endDate)
    ensures c.startDate.None? && c.endDate.None? ==> InDateRange(e, c.startDate, c.endDate)
    ensures MatchesSearch(e, "")
  {
    assert OccursAt(Lower(e.category), Lower(""), 0);
  }

  // ---------------------------------------------------------------------------
  // Pagination
  // ---------------------------------------------------------------------------

  datatype Pager = Pager(page: int, totalPages: int)

  /** `disabled={page === 1}` */
  predicate PrevDisabled(p: Pager) { p.page == 1 }

  /** `disabled={page === totalPages}` */
  predicate NextDisabled(p: Pager) { p.page == p.totalPages }

  /** A click on "previous": a disabled button does nothing. */
  function ClickPrev(p: Pager): (r: Pager)
    ensures r.totalPages == p.totalPages
    ensures r == p <==> PrevDisabled(p)
    ensures !PrevDisabled(p) ==> r.page == p.page - 1
  {
    if PrevDisabled(p) then p else p.(page := p.page - 1)
  }

  /** A click on "next": a disabled button does nothing. */
  function ClickNext(p: Pager): (r: Pager)
    ensures r.totalPages == p.totalPages
    ensures r == p <==> NextDisabled(p)
    ensures !NextDisabled(p) ==> r.page == p.page + 1
  {
    if NextDisabled(p) then p else p.(page := p.page + 1)
  }

  /** The page the dashboard shows stays between 1 and the page count
      whatever buttons are clicked, starting from page 1; on the first page
      only "next" can move, on the last only "previous". */
  lemma PagerStaysInRange(p: Pager)
    requires 1 <= p.page <= p.totalPages
    ensures 1 <= ClickPrev(p).page <= ClickPrev(p).totalPages
    ensures 1 <= ClickNext(p).page <= ClickNext(p).totalPages
    ensures p.page == 1 ==> ClickPrev(p) == p
    ensures p.page == p.totalPages ==> ClickNext(p) == p
  {
  }

  // ---------------------------------------------------------------------------
  // The page as a whole
  // ---------------------------------------------------------------------------

  /** The dashboard's list for a requester under the given controls, reading
      the server's answer the corrected way. */
  function View(s: Store, requester: UserId, c: Controls): (r: seq<Expense>)
    ensures forall i :: 0 <= i < |r| ==> r[i] in s && r[i].owner == requester && Shown(r[i], c)
    ensures forall i :: 0 <= i < |s| && s[i].owner == requester && Shown(s[i], c) ==> s[i] in r
    ensures multiset(r) == multiset(Filter(Owned(s, requester), ByControls(c)))
    ensures OrderedFor(r, c.sortType)
  {
    var items := Load(ServerAnswer(s, requester)).items;
    LoadServerAnswer(s, requester);
    FilterPermutation(items, Owned(s, requester), ByControls(c));
    FilteredExpenses(items, c)
  }
}

=== FILE: expense_store.dfy ===
/** The expense request handlers (controllers/expenseController.js) over the
    expense collection, modelled as a sequence of documents in natural order.
    The authenticated user id, fresh document ids and the clock are parameters. */
module ExpenseStore {
  import opened Base
  import opened Seqs
  import opened Records

  type Store = seq<Expense>

  /** The collection's unique `_id` index. */
  predicate UniqueIds(s: Store) {
    forall i, j :: 0 <= i < j < |s| ==> s[i].id != s[j].id
  }

  predicate Invariant(s: Store) {
    UniqueIds(s) && forall i :: 0 <= i < |s| ==> ValidExpense(s[i])
  }

  datatype ExpenseError =
    | MissingFields     // 400 "Missing required fields"
    | NotFound          // 404 "Expense not found"
    | ValidationFailed  // 500, the schema validator's message
    | DuplicateId       // 500, the unique index's message

  function Status(e: ExpenseError): nat {
    match e
    case MissingFields => 400
    case NotFound => 404
    case ValidationFailed => 500
    case DuplicateId => 500
  }

  /** The collection after a handler ran, and what the handler answered. */
  datatype Step<T> = Step(store: Store, result: Result<T, ExpenseError>)

  // ---------------------------------------------------------------------------
  // Add
  // ---------------------------------------------------------------------------

  /** JavaScript falsiness of the three checked body fields: absent, the number
      0, or the empty string. */
  predicate FalsyAmount(a: Option<int>) { a.None? || a.value == 0 }
  predicate FalsyText(t: Option<string>) { t.None? || t.value == "" }

  /** `addExpense`: reject a falsy amount, type or category with 400; otherwise
      create the document owned by the requester (a `user` key in the body is
      ignored) and append it. A `type` outside the enum passes the falsiness
      check and is rejected by schema validation (500). */
  function AddExpense(s: Store, requester: UserId, body: Draft, id: ExpenseId, now: Date): (r: Step<Expense>)
    ensures r.result == Err(MissingFields) <==>
      FalsyAmount(body.amount) || FalsyText(body.kind) || FalsyText(body.category)
    ensures r.result.Ok? <==>
      && !(FalsyAmount(body.amount) || FalsyText(body.kind) || FalsyText(body.category))
      && (body.kind.value == "income" || body.kind.value == "expense")
      && (forall i :: 0 <= i < |s| ==> s[i].id != id)
    ensures !(FalsyAmount(body.amount) || FalsyText(body.kind) || FalsyText(body.category)) ==>
      && (body.kind.value != "income" && body.kind.value != "expense" ==> r.result == Err(ValidationFailed))
      && (body.kind.value == "income" || body.kind.value == "expense" ==>
            (exists i :: 0 <= i < |s| && s[i].id == id) ==> r.result == Err(DuplicateId))
    ensures r.result.Err? ==> r.store == s
    ensures r.result.Ok? ==>
      var e := r.result.value;
      && r.store == s + [e]
      && ValidExpense(e)
      && e.id == id && e.owner == requester
      && e.amount == body.amount.value && KindName(e.kind) == body.kind.value
      && e.category == body.category.value && e.note == body.note
      && e.date == body.date.GetOr(now)
      && (forall i :: 0 <= i < |s| ==> s[i].id != id)
  {
    if FalsyAmount(body.amount) || FalsyText(body.kind) || FalsyText(body.category) then
      Step(s, Err(MissingFields))
    else
      match Validate(id, body.(owner := Some(requester)), now)
      case None => Step(s, Err(ValidationFailed))
      case Some(e) =>
        if exists i :: 0 <= i < |s| && s[i].id == id then Step(s, Err(DuplicateId))
        else Step(s + [e], Ok(e))
  }

  /** A successful add keeps the collection invariant and grows the requester's
      expenses by exactly the new one. */
  lemma AddExpensePreserves(s: Store, requester: UserId, body: Draft, id: ExpenseId, now: Date)
    requires Invariant(s)
    ensures Invariant(AddExpense(s, requester, body, id, now).store)
    ensures var r := AddExpense(s, requester, body, id, now);
      r.result.Ok? ==> multiset(Owned(r.store, requester)) == multiset(Owned(s, requester)) + multiset{r.result.value}
  {
    var r := AddExpense(s, requester, body, id, now);
    if r.result.Ok? {
      FilterConcat(s, [r.result.value], (e: Expense) => e.owner == requester);
    }
  }

  // ---------------------------------------------------------------------------
  // List
  // ---------------------------------------------------------------------------

  /** `Expense.find({ user })`: the requester's documents in natural order. */
  function Owned(s: Store, u: UserId): seq<Expense> {
    Filter(s, (e: Expense) => e.owner == u)
  }

  /** The key of `.sort({ date: -1 })`: ascending in it is newest first. */
  const NewestFirst: Expense -> int := (e: Expense) => -e.date.millis

  lemma NewestFirstOrder(r: seq<Expense>)
    requires SortedBy(r, NewestFirst)
    ensures forall i, j :: 0 <= i < j < |r| ==> r[i].date.millis >= r[j].date.millis
  {
    forall i, j | 0 <= i < j < |r| ensures r[i].date.millis >= r[j].date.millis {
      assert NewestFirst(r[i]) <= NewestFirst(r[j]);
    }
  }

  /** The requester's documents are exactly the stored ones they own. */
  lemma OwnedMembers(s: Store, requester: UserId)
    ensures forall x :: x in Owned(s, requester) <==> x in s && x.owner == requester
  {
    var p := (e: Expense) => e.owner == requester;
    var o := Owned(s, requester);
    forall x | x in o ensures x in s && x.owner == requester {
      var i :| 0 <= i < |o| && o[i] == x;
      assert p(o[i]);
    }
    forall x | x in s && x.owner == requester ensures x in o {
      var i :| 0 <= i < |s| && s[i] == x;
      assert p(s[i]);
    }
  }

  /** `getExpenses`: the requester's expenses, newest first. */
  function GetExpenses(s: Store, requester: UserId): (r: seq<Expense>)
    ensures forall i :: 0 <= i < |r| ==> r[i] in s && r[i].owner == requester
    ensures forall i :: 0 <= i < |s| && s[i].owner == requester ==> s[i] in r
    ensures multiset(r) == multiset(Owned(s, requester))
    ensures forall i, j :: 0 <= i < j < |r| ==> r[i].date.millis >= r[j].date.millis
  {
    var o := Owned(s, requester);
    var r := SortBy(o, NewestFirst);
    SameElements(r, o);
    OwnedMembers(s, requester);
    NewestFirstOrder(r);
    r
  }

  /** Another user's expenses never change what a requester is listed. */
  lemma GetExpensesIgnoresOthers(s: Store, requester: UserId, e: Expense)
    requires e.owner != requester
    ensures GetExpenses(s + [e], requester) == GetExpenses(s, requester)
  {
    FilterConcat(s, [e], (x: Expense) => x.owner == requester);
    assert Owned(s + [e], requester) == Owned(s, requester);
  }

  // ---------------------------------------------------------------------------
  // Lookup scoped by owner
  // ---------------------------------------------------------------------------

  /** `findOne({ _id: id, user: requester })`: the first document with both. */
  function FindOwned(s: Store, id: ExpenseId, requester: UserId): (r: Option<nat>)
    ensures r.Some? ==> r.value < |s| && s[r.value].id == id && s[r.value].owner == requester
    ensures r.Some? ==> forall j :: 0 <= j < r.value ==> !(s[j].id == id && s[j].owner == requester)
    ensures r.None? <==> forall j :: 0 <= j < |s| ==> !(s[j].id == id && s[j].owner == requester)
  {
    if |s| == 0 then None
    else if s[0].id == id && s[0].owner == requester then Some(0)
    else match FindOwned(s[1..], id, requester)
      case None => None
      case Some(k) => Some(k + 1)
  }

  // ---------------------------------------------------------------------------
  // Update
  // ---------------------------------------------------------------------------

  /** `Object.assign(document, body)`: every path present in the body overwrites
      the document's; the others are kept. */
  function Assign(d: Draft, body: Draft): Draft {
    Draft(
      if body.owner.Some? then body.owner else d.owner,
      if body.amount.Some? then body.amount else d.amount,
      if body.kind.Some? then body.kind else d.kind,
      if body.category.Some? then body.category else d.category,
      if body.note.Some? then body.note else d.note,
      if body.date.Some? then body.date else d.date)
  }

  /** `e'` is `e` with exactly the body's present fields overwritten. */
  predicate Patched(e: Expense, body: Draft, e': Expense) {
    && e'.id == e.id
    && e'.owner == body.owner.GetOr(e.owner)
    && e'.amount == body.amount.GetOr(e.amount)
    && KindName(e'.kind) == body.kind.GetOr(KindName(e.kind))
    && e'.category == body.category.GetOr(e.category)
    && e'.note == (if body.note.Some? then body.note else e.note)
    && e'.date == body.date.GetOr(e.date)
  }

  /** `updateExpense`: 404 unless the requester owns a document with that id;
      otherwise merge the body and save, which re-runs schema validation. */
  function UpdateExpense(s: Store, requester: UserId, id: ExpenseId, body: Draft): (r: Step<Expense>)
    ensures r.result.Err? ==> r.store == s
    ensures r.result == Err(NotFound) <==> FindOwned(s, id, requester).None?
    ensures r.result.Ok? ==>
      var i := FindOwned(s, id, requester).value;
      && r.store == s[i := r.result.value]
      && Patched(s[i], body, r.result.value)
      && ValidExpense(r.result.value)
    ensures FindOwned(s, id, requester).Some? && r.result.Err? ==> r.result == Err(ValidationFailed)
  {
    match FindOwned(s, id, requester)
    case None => Step(s, Err(NotFound))
    case Some(i) =>
      var cur := s[i];
      match Validate(cur.id, Assign(ToDraft(cur), body), cur.date)
      case None => Step(s, Err(ValidationFailed))
      case Some(e) =>
        ParseKindName(cur.kind);
        Step(s[i := e], Ok(e))
  }

  /** Validation fails on update exactly when the body sets `type` outside the
      enum or sets `category` to the empty string. A zero amount, which
      `addExpense` refuses, is accepted here. */
  lemma UpdateValidation(s: Store, requester: UserId, id: ExpenseId, body: Draft)
    requires Invariant(s)
    requires FindOwned(s, id, requester).Some?
    ensures UpdateExpense(s, requester, id, body).result.Ok? <==>
      && (body.kind.None? || body.kind.value == "income" || body.kind.value == "expense")
      && (body.category.None? || body.category.value != "")
  {
  }

  /** An update without a `user` key keeps the owner, keeps the invariant, and
      leaves every other document untouched. */
  lemma UpdateExpensePreserves(s: Store, requester: UserId, id: ExpenseId, body: Draft)
    requires Invariant(s)
    ensures Invariant(UpdateExpense(s, requester, id, body).store)
    ensures var r := UpdateExpense(s, requester, id, body);
      r.result.Ok? ==>
        && |r.store| == |s|
        && (forall j :: 0 <= j < |s| && s[j].id != id ==> r.store[j] == s[j])
        && (body.owner.None? ==> r.result.value.owner == requester)
  {
  }

  /** An id owned by someone else gets the same answer as an id that does not
      exist: updating it answers exactly as on a collection without it. */
  lemma UpdateForeignIsAbsent(s: Store, requester: UserId, id: ExpenseId, body: Draft)
    requires forall j :: 0 <= j < |s| && s[j].id == id ==> s[j].owner != requester
    ensures UpdateExpense(s, requester, id, body).result
         == UpdateExpense(Filter(s, (e: Expense) => e.id != id), requester, id, body).result
    ensures UpdateExpense(s, requester, id, body).store == s
  {
  }

  // ---------------------------------------------------------------------------
  // Delete
  // ---------------------------------------------------------------------------

  /** `deleteExpense`: `findOneAndDelete({ _id: id, user: requester })`. */
  function DeleteExpense(s: Store, requester: UserId, id: ExpenseId): (r: Step<()>)
    ensures r.result.Err? <==> FindOwned(s, id, requester).None?
    ensures r.result.Err? ==> r.result == Err(NotFound) && r.store == s
    ensures r.result.Ok? ==>
      var i := FindOwned(s, id, requester).value;
      && |r.store| == |s| - 1
      && multiset(r.store) == multiset(s) - multiset{s[i]}
      && r.store == s[..i] + s[i + 1..]
  {
    match FindOwned(s, id, requester)
    case None => Step(s, Err(NotFound))
    case Some(i) => Step(RemoveAt(s, i), Ok(()))
  }

  /** A successful delete removes the one document with that id, keeps the
      invariant, and removes nothing of anybody else's. */
  lemma DeleteExpensePreserves(s: Store, requester: UserId, id: ExpenseId)
    requires Invariant(s)
    ensures Invariant(DeleteExpense(s, requester, id).store)
    ensures var r := DeleteExpense(s, requester, id);
      r.result.Ok? ==>
        && (forall j :: 0 <= j < |r.store| ==> r.store[j].id != id)
        && (forall j :: 0 <= j < |s| && s[j].id != id ==> s[j] in r.store)
  {
    var r := DeleteExpense(s, requester, id);
    if r.result.Ok? {
      var i := FindOwned(s, id, requester).value;
      forall j | 0 <= j < |s| && s[j].id != id
        ensures s[j] in r.store
      {
        if j < i { assert r.store[j] == s[j]; } else { assert r.store[j - 1] == s[j]; }
      }
    }
  }
}

=== FILE: forgot_password_form.dfy ===
/** The password-reset page's client state (pages/ForgotPassword.jsx): the
    two steps, the six one-digit code cells with their edit and paste
    handlers, the resend countdown, and the checks made before the reset
    request is sent. Each request's outcome is a parameter. */
module ForgotPasswordForm {
  import opened Text

  /** Step 1 asks for the email; step 2 for the code and the new password. */
  datatype Form = Form(
    step: int,
    email: string,
    otp: seq<string>,
    newPassword: string,
    confirmPassword: string,
    resendTimer: int)

  const EmptyCells: seq<string> := ["", "", "", "", "", ""]

  /** The page's initial state. */
  const Initial := Form(1, "", EmptyCells, "", "", 0)

  /** A cell holds nothing or a single digit. */
  predicate CellOk(c: string) {
    c == "" || (|c| == 1 && IsDigit(c[0]))
  }

  predicate CellsOk(otp: seq<string>) {
    |otp| == 6 && forall i :: 0 <= i < |otp| ==> CellOk(otp[i])
  }

  /** What the page's state always satisfies. */
  predicate FormOk(f: Form) {
    && (f.step == 1 || f.step == 2)
    && CellsOk(f.otp)
    && 0 <= f.resendTimer <= 60
  }

  lemma InitialOk()
    ensures FormOk(Initial) && Join(Initial.otp) == ""
  {
    JoinBlank(EmptyCells);
  }

  /** `otp.join("")` */
  function Join(cells: seq<string>): string {
    if |cells| == 0 then "" else Join(cells[..|cells| - 1]) + cells[|cells| - 1]
  }

  /** Empty cells join to the empty code. */
  lemma {:induction false} JoinBlank(cells: seq<string>)
    requires forall i :: 0 <= i < |cells| ==> cells[i] == ""
    ensures Join(cells) == ""
  {
    if |cells| > 0 {
      JoinBlank(cells[..|cells| - 1]);
    }
  }

  // ---------------------------------------------------------------------------
  // Editing the cells
  // ---------------------------------------------------------------------------

  /** `handleOtpChange(index, value)`: a value with a non-digit is ignored;
      otherwise cell `index` takes the value's last character, or nothing
      when the value is empty. */
  function OtpChange(otp: seq<string>, index: nat, value: string): (r: seq<string>)
    requires index < |otp|
    ensures !AllDigits(value) ==> r == otp
    ensures |r| == |otp|
    ensures forall j :: 0 <= j < |otp| && j != index ==> r[j] == otp[j]
    ensures AllDigits(value) ==> r[index] == (if value == "" then "" else value[|value| - 1..])
    ensures CellsOk(otp) ==> CellsOk(r)
  {
    if !AllDigits(value) then otp
    else otp[index := if value == "" then "" else value[|value| - 1..]]
  }

  /** `paste.split("")`: one cell per character. */
  function Split(s: string): (r: seq<string>)
    ensures |r| == |s|
    ensures forall i :: 0 <= i < |s| ==> r[i] == [s[i]]
  {
    seq(|s|, i requires 0 <= i < |s| => [s[i]])
  }

  /** Splitting into cells and joining them back gives the text again. */
  lemma {:induction false} JoinSplit(s: string)
    ensures Join(Split(s)) == s
  {
    if |s| > 0 {
      var init := s[..|s| - 1];
      assert Split(s)[..|s| - 1] == Split(init);
      JoinSplit(init);
      assert s == init + [s[|s| - 1]];
    }
  }

  /** `handleOtpPaste`: the trimmed clipboard text fills the six cells when it
      is exactly six digits; any other text changes nothing. */
  function OtpPaste(otp: seq<string>, text: string): (r: seq<string>)
    ensures var p := Trim(text);
      && (|p| == 6 && AllDigits(p) ==> CellsOk(r) && Join(r) == p)
      && (!(|p| == 6 && AllDigits(p)) ==> r == otp)
  {
    var p := Trim(text);
    if |p| == 6 && AllDigits(p) then
      JoinSplit(p);
      Split(p)
    else otp
  }

  // ---------------------------------------------------------------------------
  // The joined code
  // ---------------------------------------------------------------------------

  /** The number of cells holding a digit. */
  function Filled(cells: seq<string>): (n: nat)
    ensures n <= |cells|
  {
    if |cells| == 0 then 0 else Filled(cells[..|cells| - 1]) + (if cells[|cells| - 1] == "" then 0 else 1)
  }

  /** Joined well-formed cells are digits, one per filled cell. */
  lemma {:induction false} JoinFilled(cells: seq<string>)
    requires forall i :: 0 <= i < |cells| ==> CellOk(cells[i])
    ensures |Join(cells)| == Filled(cells)
    ensures AllDigits(Join(cells))
    ensures Filled(cells) == |cells| <==> forall i :: 0 <= i < |cells| ==> cells[i] != ""
  {
    if |cells| > 0 {
      var init := cells[..|cells| - 1];
      JoinFilled(init);
      var last := cells[|cells| - 1];
      var j := Join(init) + last;
      forall k | 0 <= k < |j| ensures IsDigit(j[k]) {
        if k >= |Join(init)| { assert j[k] == last[0]; }
        else { assert j[k] == Join(init)[k]; }
      }
      if Filled(cells) == |cells| {
        forall i | 0 <= i < |cells| ensures cells[i] != "" {
          if i < |cells| - 1 { assert cells[i] == init[i]; }
        }
      }
    }
  }

  /** The joined code has six characters exactly when every cell is filled,
      and it is then a six-digit string. */
  lemma JoinedSixIffAllFilled(otp: seq<string>)
    requires CellsOk(otp)
    ensures |Join(otp)| == 6 <==> forall i :: 0 <= i < 6 ==> otp[i] != ""
    ensures |Join(otp)| == 6 ==> AllDigits(Join(otp)) && NoSpaces(Join(otp))
  {
    JoinFilled(otp);
    var j := Join(otp);
    forall k | 0 <= k < |j| ensures !IsSpace(j[k]) {
      assert IsDigit(j[k]);
    }
  }

  // ---------------------------------------------------------------------------
  // Submitting the reset
  // ---------------------------------------------------------------------------

  datatype FormError =
    | IncompleteOtp     // "Please enter the complete 6-digit OTP"
    | PasswordTooShort  // "Password must be at least 6 characters"
    | PasswordMismatch  // "Passwords do not match"

  /** Either a refusal shown to the user or the body of the reset request. */
  datatype Submission = Refused(error: FormError) | SendReset(email: string, otp: string, newPassword: string)

  /** `handleResetPassword`'s checks, in source order. */
  function ResetSubmit(f: Form): (r: Submission)
    ensures r.SendReset? <==>
      |Join(f.otp)| == 6 && |f.newPassword| >= 6 && f.newPassword == f.confirmPassword
    ensures |Join(f.otp)| != 6 ==> r == Refused(IncompleteOtp)
    ensures |Join(f.otp)| == 6 && |f.newPassword| < 6 ==> r == Refused(PasswordTooShort)
    ensures |Join(f.otp)| == 6 && |f.newPassword| >= 6 && f.newPassword != f.confirmPassword ==>
      r == Refused(PasswordMismatch)
    ensures r.SendReset? ==> r == SendReset(f.email, Join(f.otp), f.newPassword)
  {
    var code := Join(f.otp);
    if |code| != 6 then Refused(IncompleteOtp)
    else if |f.newPassword| < 6 then Refused(PasswordTooShort)
    else if f.newPassword != f.confirmPassword then Refused(PasswordMismatch)
    else SendReset(f.email, code, f.newPassword)
  }

  /** A reset request is only ever sent with six filled cells, and its code
      is six digits, which the server's trimming leaves as they are. */
  lemma SentCodeIsSixDigits(f: Form)
    requires FormOk(f)
    requires ResetSubmit(f).SendReset?
    ensures var code := ResetSubmit(f).otp;
      |code| == 6 && AllDigits(code) && Trim(code) == code
    ensures forall i :: 0 <= i < 6 ==> f.otp[i] != ""
  {
    JoinedSixIffAllFilled(f.otp);
    TrimNoSpaces(Join(f.otp));
  }

  // ---------------------------------------------------------------------------
  // Sending and resending the code, the countdown, going back
  // ---------------------------------------------------------------------------

  /** `handleSendOtp`, given whether the request succeeded: on success move
      to step 2 and start a 60-second countdown; on failure stay as before. */
  function SendOtp(f: Form, succeeded: bool): (r: Form)
    ensures succeeded ==> r.step == 2 && r.resendTimer == 60
    ensures !succeeded ==> r == f
    ensures r.otp == f.otp && r.email == f.email
  {
    if succeeded then f.(step := 2, resendTimer := 60) else f
  }

  /** `handleResendOtp`: nothing while the countdown runs; otherwise clear the
      cells, then send. */
  function ResendOtp(f: Form, succeeded: bool): (r: Form)
    ensures f.resendTimer > 0 ==> r == f
    ensures f.resendTimer <= 0 ==> r.otp == EmptyCells && Join(r.otp) == ""
    ensures f.resendTimer <= 0 && succeeded ==> r.step == 2 && r.resendTimer == 60
    ensures f.resendTimer <= 0 && !succeeded ==> r == f.(otp := EmptyCells)
  {
    JoinBlank(EmptyCells);
    if f.resendTimer > 0 then f else SendOtp(f.(otp := EmptyCells), succeeded)
  }

  /** One second of the countdown effect: it only runs while positive. */
  function Tick(f: Form): (r: Form)
    ensures r == f.(resendTimer := r.resendTimer)
    ensures f.resendTimer > 0 ==> r.resendTimer == f.resendTimer - 1
    ensures f.resendTimer <= 0 ==> r == f
  {
    if f.resendTimer > 0 then f.(resendTimer := f.resendTimer - 1) else f
  }

  function Ticks(f: Form, n: nat): Form {
    if n == 0 then f else Tick(Ticks(f, n - 1))
  }

  /** After `n` seconds the countdown has gone down by `n`, stopping at 0,
      and nothing else has changed. */
  lemma {:induction false} TicksCountDown(f: Form, n: nat)
    requires f.resendTimer >= 0
    ensures Ticks(f, n) == f.(resendTimer := if f.resendTimer >= n then f.resendTimer - n else 0)
  {
    if n > 0 {
      TicksCountDown(f, n - 1);
    }
  }

  /** The "Back" button returns to step 1, keeping what was typed and the
      running countdown. */
  function Back(f: Form): (r: Form)
    ensures r.step == 1
    ensures r.email == f.email && r.otp == f.otp
    ensures r.newPassword == f.newPassword && r.confirmPassword == f.confirmPassword
    ensures r.resendTimer == f.resendTimer
  {
    f.(step := 1)
  }

  /** Going back from the code step and sending the code again returns to the
      code step with everything typed intact: the countdown restarts and
      nothing else differs from before. A failed send stays on step 1. */
  lemma BackThenSend(f: Form)
    requires f.step == 2
    ensures SendOtp(Back(f), true) == f.(resendTimer := 60)
    ensures SendOtp(Back(f), false) == f.(step := 1)
  {
  }

  // ---------------------------------------------------------------------------
  // The page as a state machine
  // ---------------------------------------------------------------------------

  datatype Event =
    | EditCell(index: nat, value: string)
    | Paste(text: string)
    | SendCode(succeeded: bool)
    | ResendCode(succeeded: bool)
    | Second
    | GoBack
    | TypeEmail(email: string)
    | TypePassword(newPassword: string)
    | TypeConfirmation(confirmPassword: string)

  /** The cells are only ever edited through the six rendered inputs. */
  predicate Possible(f: Form, e: Event) {
    e.EditCell? ==> e.index < |f.otp|
  }

  function Apply(f: Form, e: Event): Form
    requires Possible(f, e)
  {
    match e
    case EditCell(i, v) => f.(otp := OtpChange(f.otp, i, v))
    case Paste(t) => f.(otp := OtpPaste(f.otp, t))
    case SendCode(ok) => SendOtp(f, ok)
    case ResendCode(ok) => ResendOtp(f, ok)
    case Second => Tick(f)
    case GoBack => Back(f)
    case TypeEmail(m) => f.(email := m)
    case TypePassword(p) => f.(newPassword := p)
    case TypeConfirmation(p) => f.(confirmPassword := p)
  }

  /** Every event keeps the page's state well formed: six cells of at most one
      digit each, step 1 or 2, and a countdown between 0 and 60. */
  lemma ApplyPreserves(f: Form, e: Event)
    requires FormOk(f) && Possible(f, e)
    ensures FormOk(Apply(f, e))
  {
    if e.Paste? {
      var p := Trim(e.text);
      if |p| == 6 && AllDigits(p) {
        assert CellsOk(OtpPaste(f.otp, e.text));
      }
    }
  }

  /** The page after a sequence of events, from a well-formed state: it stays
      well formed whatever the user does on the six inputs. */
  function Run(f: Form, es: seq<Event>): (r: Form)
    requires FormOk(f)
    requires forall k :: 0 <= k < |es| ==> es[k].EditCell? ==> es[k].index < 6
    ensures FormOk(r)
    decreases |es|
  {
    if |es| == 0 then f
    else
      ApplyPreserves(f, es[0]);
      Run(Apply(f, es[0]), es[1..])
  }
}

=== FILE: records.dfy ===
/** The two stored record shapes, Expense and User, with the defaults, setters
    and validators their schemas declare (models/Expense.js, models/User.js). */
module Records {
  import opened Base
  import opened Text

  /** Database object ids, abstracted to naturals. */
  type UserId = nat
  type ExpenseId = nat

  type Month = m: int | 1 <= m <= 12 witness 1

  /** A stored date: milliseconds since the epoch, used for ordering, and the
      UTC month-of-year the `$month` operator reads from it. */
  datatype Date = Date(millis: int, month: Month)

  // ---------------------------------------------------------------------------
  // Expense
  // ---------------------------------------------------------------------------

  /** The two values of the `type` enum. */
  datatype Kind = Income | Spending

  function KindName(k: Kind): string {
    match k
    case Income => "income"
    case Spending => "expense"
  }

  /** The `enum` validator: a string is a kind exactly when it is one of the two names. */
  function ParseKind(s: string): (r: Option<Kind>)
    ensures r.Some? <==> s == "income" || s == "expense"
    ensures r.Some? ==> KindName(r.value) == s
  {
    if s == "income" then Some(Income)
    else if s == "expense" then Some(Spending)
    else None
  }

  lemma ParseKindName(k: Kind)
    ensures ParseKind(KindName(k)) == Some(k)
  {
  }

  datatype Expense = Expense(
    id: ExpenseId,
    owner: UserId,
    amount: int,
    kind: Kind,
    category: string,
    note: Option<string>,
    date: Date)

  /** What the schema guarantees of a stored expense beyond its field types:
      the required string `category` is non-empty. */
  predicate ValidExpense(e: Expense) {
    e.category != ""
  }

  /** An expense document before validation: every path may be unset. This is
      both what `Expense.create` receives and what `save` re-validates after a
      request body has been merged into a loaded document. */
  datatype Draft = Draft(
    owner: Option<UserId>,
    amount: Option<int>,
    kind: Option<string>,
    category: Option<string>,
    note: Option<string>,
    date: Option<Date>)

  /** Schema validation: `user`, `amount`, `type` and `category` are required
      (a required string must be non-empty), `type` must be in the enum, and an
      unset `date` takes the default `Date.now`, given here as `now`. */
  function Validate(id: ExpenseId, d: Draft, now: Date): (r: Option<Expense>)
    ensures r.Some? <==>
      && d.owner.Some? && d.amount.Some?
      && d.kind.Some? && (d.kind.value == "income" || d.kind.value == "expense")
      && d.category.Some? && d.category.value != ""
    ensures r.Some? ==>
      && ValidExpense(r.value)
      && r.value.id == id
      && r.value.owner == d.owner.value
      && r.value.amount == d.amount.value
      && KindName(r.value.kind) == d.kind.value
      && r.value.category == d.category.value
      && r.value.note == d.note
      && r.value.date == (if d.date.Some? then d.date.value else now)
  {
    if d.owner.None? || d.amount.None? || d.kind.None? || d.category.None? then None
    else if d.category.value == "" then None
    else match ParseKind(d.kind.value)
      case None => None
      case Some(k) =>
        Some(Expense(id, d.owner.value, d.amount.value, k, d.category.value, d.note, d.date.GetOr(now)))
  }

  /** A loaded document, every path set from the stored expense. */
  function ToDraft(e: Expense): Draft {
    Draft(Some(e.owner), Some(e.amount), Some(KindName(e.kind)), Some(e.category), e.note, Some(e.date))
  }

  /** Saving a loaded, unmodified document re-validates to the same expense. */
  lemma ValidateToDraft(e: Expense, now: Date)
    requires ValidExpense(e)
    ensures Validate(e.id, ToDraft(e), now) == Some(e)
  {
  }

  /** A validated draft is exactly the document of the expense it produced,
      apart from an unset `date`, which was filled with `now`. */
  lemma ToDraftValidate(id: ExpenseId, d: Draft, now: Date)
    requires Validate(id, d, now).Some?
    ensures ToDraft(Validate(id, d, now).value) == d.(date := Some(d.date.GetOr(now)))
  {
    var e := Validate(id, d, now).value;
    ParseKindName(e.kind);
  }

  // ---------------------------------------------------------------------------
  // User
  // ---------------------------------------------------------------------------

  /** A password hash. bcrypt is modelled symbolically: a digest remembers the
      salt and the password it was computed from, and comparison succeeds
      exactly for that password (collisions are not modelled). */
  datatype Digest = Digest(salt: nat, preimage: string)

  function HashPassword(plain: string, salt: nat): Digest {
    Digest(salt, plain)
  }

  /** `bcrypt.compare(plain, digest)`. */
  predicate Matches(plain: string, d: Digest) {
    d.preimage == plain
  }

  /** A digest matches the password it was made from, whatever the salt, and no other. */
  lemma HashThenMatch(plain: string, other: string, salt: nat)
    ensures Matches(plain, HashPassword(plain, salt))
    ensures Matches(other, HashPassword(plain, salt)) <==> other == plain
  {
  }

  datatype Preferences = Preferences(currency: string, theme: string, monthlyBudget: int)

  const DefaultPreferences := Preferences("INR", "light", 0)

  datatype User = User(
    id: UserId,
    name: string,
    email: string,
    password: Digest,
    resetOtp: Option<string>,
    resetOtpExpiry: Option<int>,
    preferences: Preferences)

  /** The schema's guarantees for a stored user: `name` non-empty with no
      whitespace at either end (so its own trim, see `StoredNameIsTrimmed`),
      `email` lower-case and non-empty. */
  predicate ValidUser(u: User) {
    && u.name != "" && !IsSpace(u.name[0]) && !IsSpace(u.name[|u.name| - 1])
    && u.email != "" && IsLowerCase(u.email)
  }

  /** `User.create({name, email, password})`: the `trim` and `lowercase` setters
      run, the required paths are checked (a required string must be
      non-empty), and the OTP fields and preferences take their defaults. */
  function CreateUser(id: UserId, name: string, email: string, password: Digest): (r: Option<User>)
    ensures r.Some? <==> Trim(name) != "" && email != ""
    ensures r.Some? ==>
      && ValidUser(r.value)
      && r.value.id == id
      && r.value.name == Trim(name)
      && r.value.email == Lower(email)
      && r.value.password == password
      && r.value.resetOtp.None? && r.value.resetOtpExpiry.None?
      && r.value.preferences == Preferences("INR", "light", 0)
  {
    var n := Trim(name);
    var e := Lower(email);
    if n == "" || e == "" then None
    else
      Some(User(id, n, e, password, None, None, DefaultPreferences))
  }

  /** A stored name is what the `trim` setter would store for it. */
  lemma StoredNameIsTrimmed(u: User)
    requires ValidUser(u)
    ensures Trim(u.name) == u.name
  {
    TrimIsTheInfix(u.name, 0, |u.name|);
    assert u.name[0..|u.name|] == u.name;
  }
}

=== FILE: seqs.dfy ===
/** Sequence operations the source gets from `Array.prototype.filter`,
    `Array.prototype.sort` and the database's `find`/`sort`. */
module Seqs {

  // ---------------------------------------------------------------------------
  // Filtering
  // ---------------------------------------------------------------------------

  /** The elements of `s` satisfying `p`, in their original order. */
  function Filter<T>(s: seq<T>, p: T -> bool): (r: seq<T>)
    ensures |r| <= |s|
    ensures forall i :: 0 <= i < |r| ==> p(r[i]) && r[i] in s
    ensures forall i :: 0 <= i < |s| && p(s[i]) ==> s[i] in r
    ensures multiset(r) <= multiset(s)
  {
    if |s| == 0 then []
    else
      assert s == [s[0]] + s[1..];
      if p(s[0]) then [s[0]] + Filter(s[1..], p)
      else Filter(s[1..], p)
  }

  lemma {:induction false} FilterConcat<T>(a: seq<T>, b: seq<T>, p: T -> bool)
    ensures Filter(a + b, p) == Filter(a, p) + Filter(b, p)
  {
    if |a| > 0 {
      assert (a + b)[1..] == a[1..] + b;
      FilterConcat(a[1..], b, p);
    } else {
      assert a + b == b;
    }
  }

  /** Filtering keeps each element as often as the input has it, or drops it. */
  lemma {:induction false} FilterCount<T>(s: seq<T>, p: T -> bool, x: T)
    ensures multiset(Filter(s, p))[x] == if p(x) then multiset(s)[x] else 0
  {
    if |s| > 0 {
      FilterCount(s[1..], p, x);
      assert s == [s[0]] + s[1..];
      assert multiset(s) == multiset{s[0]} + multiset(s[1..]);
      if p(s[0]) {
        assert multiset(Filter(s, p)) == multiset{s[0]} + multiset(Filter(s[1..], p));
      } else {
        assert Filter(s, p) == Filter(s[1..], p);
      }
    }
  }

  /** Filtering two permutations of each other gives permutations of each other. */
  lemma FilterPermutation<T>(a: seq<T>, b: seq<T>, p: T -> bool)
    requires multiset(a) == multiset(b)
    ensures multiset(Filter(a, p)) == multiset(Filter(b, p))
  {
    forall x ensures multiset(Filter(a, p))[x] == multiset(Filter(b, p))[x] {
      FilterCount(a, p, x);
      FilterCount(b, p, x);
    }
  }

  // ---------------------------------------------------------------------------
  // Stable sorting by an integer key
  // ---------------------------------------------------------------------------

  ghost predicate SortedBy<T>(s: seq<T>, key: T -> int) {
    forall i, j :: 0 <= i < j < |s| ==> key(s[i]) <= key(s[j])
  }

  /** Inserts `x` before the first element whose key is not smaller, so `x`
      stays ahead of the elements with an equal key. */
  function InsertBy<T>(x: T, s: seq<T>, key: T -> int): (r: seq<T>)
    ensures |r| == |s| + 1
    ensures multiset(r) == multiset(s) + multiset{x}
    ensures r[0] == x || (|s| > 0 && r[0] == s[0])
  {
    if |s| == 0 || key(x) <= key(s[0]) then [x] + s
    else
      assert s == [s[0]] + s[1..];
      [s[0]] + InsertBy(x, s[1..], key)
  }

  /** Inserting into an ordered sequence keeps it ordered. */
  lemma {:induction false} InsertBySorted<T>(x: T, s: seq<T>, key: T -> int)
    requires SortedBy(s, key)
    ensures SortedBy(InsertBy(x, s, key), key)
  {
    if |s| == 0 || key(x) <= key(s[0]) {
      ConsSorted(x, s, key);
    } else {
      TailSorted(s, key);
      InsertBySorted(x, s[1..], key);
      ConsSorted(s[0], InsertBy(x, s[1..], key), key);
    }
  }

  lemma TailSorted<T>(s: seq<T>, key: T -> int)
    requires |s| > 0 && SortedBy(s, key)
    ensures SortedBy(s[1..], key)
  {
    var t := s[1..];
    forall i, j | 0 <= i < j < |t| ensures key(t[i]) <= key(t[j]) {
      assert t[i] == s[i + 1] && t[j] == s[j + 1];
    }
  }

  lemma ConsSorted<T>(a: T, t: seq<T>, key: T -> int)
    requires SortedBy(t, key) && (|t| > 0 ==> key(a) <= key(t[0]))
    ensures SortedBy([a] + t, key)
  {
    var r := [a] + t;
    forall i, j | 0 <= i < j < |r| ensures key(r[i]) <= key(r[j]) {
      assert r[j] == t[j - 1];
      if i > 0 { assert r[i] == t[i - 1]; }
      else if j > 1 { assert key(t[0]) <= key(t[j - 1]); }
    }
  }

  /** A stable sort ascending by `key`, the behaviour of `Array.prototype.sort`
      (stable since ECMAScript 2019) with comparator `key(a) - key(b)`. */
  function SortBy<T>(s: seq<T>, key: T -> int): (r: seq<T>)
    ensures |r| == |s|
    ensures multiset(r) == multiset(s)
    ensures SortedBy(r, key)
  {
    if |s| == 0 then []
    else
      assert s == [s[0]] + s[1..];
      InsertBySorted(s[0], SortBy(s[1..], key), key);
      InsertBy(s[0], SortBy(s[1..], key), key)
  }

  /** Sorting a sequence that is already in order changes nothing; in particular
      a comparator that always answers 0 keeps the input order. */
  lemma {:induction false} SortBySorted<T>(s: seq<T>, key: T -> int)
    requires SortedBy(s, key)
    ensures SortBy(s, key) == s
  {
    if |s| > 0 {
      assert SortedBy(s[1..], key);
      SortBySorted(s[1..], key);
      assert s == [s[0]] + s[1..];
    }
  }

  lemma SortByConstant<T>(s: seq<T>, key: T -> int, k: int)
    requires forall i :: 0 <= i < |s| ==> key(s[i]) == k
    ensures SortBy(s, key) == s
  {
    SortBySorted(s, key);
  }

  /** Elements of equal multisets are the same elements. */
  lemma SameElements<T>(a: seq<T>, b: seq<T>)
    requires multiset(a) == multiset(b)
    ensures forall x :: x in a <==> x in b
  {
    forall x
      ensures x in a <==> x in b
    {
      assert x in a <==> x in multiset(a);
      assert x in b <==> x in multiset(b);
    }
  }

  // ---------------------------------------------------------------------------
  // Removal
  // ---------------------------------------------------------------------------

  function RemoveAt<T>(s: seq<T>, i: nat): (r: seq<T>)
    requires i < |s|
    ensures |r| == |s| - 1
    ensures multiset(r) == multiset(s) - multiset{s[i]}
    ensures forall j :: 0 <= j < i ==> r[j] == s[j]
    ensures forall j :: i <= j < |r| ==> r[j] == s[j + 1]
  {
    assert s == s[..i] + [s[i]] + s[i + 1..];
    s[..i] + s[i + 1..]
  }
}

=== FILE: text.dfy ===
/** String helpers standing in for the JavaScript built-ins the source calls:
    `toLowerCase`, `trim`, `includes`, the `\d` regular-expression class and
    number-to-decimal conversion. */
module Text {

  // ---------------------------------------------------------------------------
  // Case mapping (ASCII letters only)
  // ---------------------------------------------------------------------------

  predicate IsUpper(c: char) { 'A' <= c <= 'Z' }

  function LowerChar(c: char): (r: char)
    ensures !IsUpper(r)
    ensures !IsUpper(c) ==> r == c
  {
    if IsUpper(c) then (c as int + 32) as char else c
  }

  /** `String.prototype.toLowerCase`, restricted to ASCII letters. */
  function Lower(s: string): (r: string)
    ensures |r| == |s|
    ensures forall i :: 0 <= i < |s| ==> r[i] == LowerChar(s[i])
  {
    if |s| == 0 then "" else [LowerChar(s[0])] + Lower(s[1..])
  }

  /** A string the `lowercase: true` schema option leaves unchanged. */
  predicate IsLowerCase(s: string) {
    forall i :: 0 <= i < |s| ==> !IsUpper(s[i])
  }

  lemma LowerIsLowerCase(s: string)
    ensures IsLowerCase(Lower(s))
  {
  }

  /** Lowering twice is lowering once, so a stored email is its own lookup key. */
  lemma LowerIdempotent(s: string)
    ensures Lower(Lower(s)) == Lower(s)
  {
  }

  lemma LowerOfLowerCase(s: string)
    requires IsLowerCase(s)
    ensures Lower(s) == s
  {
  }

  // ---------------------------------------------------------------------------
  // Whitespace and trimming
  // ---------------------------------------------------------------------------

  /** The characters `String.prototype.trim` removes: ECMAScript WhiteSpace
      and LineTerminator. */
  predicate IsSpace(c: char) {
    var n := c as int;
    n == 0x09 || n == 0x0A || n == 0x0B || n == 0x0C || n == 0x0D || n == 0x20
    || n == 0xA0 || n == 0x1680 || (0x2000 <= n <= 0x200A) || n == 0x2028
    || n == 0x2029 || n == 0x202F || n == 0x205F || n == 0x3000 || n == 0xFEFF
  }

  predicate NoSpaces(s: string) {
    forall i :: 0 <= i < |s| ==> !IsSpace(s[i])
  }

  function TrimStart(s: string): (r: string)
    ensures |r| <= |s| && r == s[|s| - |r|..]
    ensures |r| > 0 ==> !IsSpace(r[0])
    ensures forall i :: 0 <= i < |s| - |r| ==> IsSpace(s[i])
  {
    if |s| > 0 && IsSpace(s[0]) then TrimStart(s[1..]) else s
  }

  function TrimEnd(s: string): (r: string)
    ensures |r| <= |s| && r == s[..|r|]
    ensures |r| > 0 ==> !IsSpace(r[|r| - 1])
    ensures forall i :: |r| <= i < |s| ==> IsSpace(s[i])
  {
    if |s| > 0 && IsSpace(s[|s| - 1]) then TrimEnd(s[..|s| - 1]) else s
  }

  /** `String.prototype.trim`: the longest infix with no leading or trailing space. */
  function Trim(s: string): (r: string)
    ensures |r| <= |s|
    ensures |r| > 0 ==> !IsSpace(r[0]) && !IsSpace(r[|r| - 1])
    ensures LeadingSpaces(s) + |r| <= |s|
    ensures r == s[LeadingSpaces(s)..LeadingSpaces(s) + |r|]
    ensures Stripped(s, LeadingSpaces(s), LeadingSpaces(s) + |r|)
  {
    var t := TrimStart(s);
    var r := TrimEnd(t);
    var a := |s| - |t|;
    assert forall i :: a + |r| <= i < |s| ==> s[i] == t[i - a];
    r
  }

  /** The number of whitespace characters `trim` drops at the front. */
  function LeadingSpaces(s: string): (n: nat)
    ensures n <= |s|
  {
    |s| - |TrimStart(s)|
  }

  /** Everything of `s` outside `s[a..b]` is whitespace. */
  predicate Stripped(s: string, a: nat, b: nat)
    requires a <= b <= |s|
  {
    && (forall i :: 0 <= i < a ==> IsSpace(s[i]))
    && (forall i :: b <= i < |s| ==> IsSpace(s[i]))
  }

  /** Trimming gives the one infix that has only whitespace around it and
      none at either end: the longest infix without surrounding whitespace. */
  lemma TrimIsTheInfix(s: string, a: nat, b: nat)
    requires a <= b <= |s| && Stripped(s, a, b)
    requires a < b ==> !IsSpace(s[a]) && !IsSpace(s[b - 1])
    ensures Trim(s) == s[a..b]
  {
    var r := Trim(s);
    var a', b' := LeadingSpaces(s), LeadingSpaces(s) + |r|;
    if a' < b' {
      assert !IsSpace(s[a']) && !IsSpace(s[b' - 1]);
      assert a <= a' && b' <= b;
      if a < b { assert a' <= a && b <= b'; }
    }
  }

  lemma {:induction false} TrimStartNoSpaces(s: string)
    requires |s| == 0 || !IsSpace(s[0])
    ensures TrimStart(s) == s
  {
  }

  lemma {:induction false} TrimEndNoSpaces(s: string)
    requires |s| == 0 || !IsSpace(s[|s| - 1])
    ensures TrimEnd(s) == s
  {
  }

  /** A string without spaces is its own trim (a stored OTP code). */
  lemma TrimNoSpaces(s: string)
    requires NoSpaces(s)
    ensures Trim(s) == s
  {
    TrimStartNoSpaces(s);
    TrimEndNoSpaces(s);
  }

  /** Trimming is idempotent. */
  lemma TrimIdempotent(s: string)
    ensures Trim(Trim(s)) == Trim(s)
  {
    var t := Trim(s);
    TrimStartNoSpaces(t);
    TrimEndNoSpaces(t);
  }

  // ---------------------------------------------------------------------------
  // Substrings
  // ---------------------------------------------------------------------------

  /** `String.prototype.includes`: `sub` occurs at some offset of `s`. */
  predicate Contains(s: string, sub: string) {
    exists i :: 0 <= i <= |s| - |sub| && OccursAt(s, sub, i)
  }

  predicate OccursAt(s: string, sub: string, i: int)
    requires 0 <= i <= |s| - |sub|
  {
    s[i..i + |sub|] == sub
  }

  // ---------------------------------------------------------------------------
  // Decimal digits
  // ---------------------------------------------------------------------------

  /** The ASCII class `\d` of a JavaScript regular expression without the `u` flag. */
  predicate IsDigit(c: char) { '0' <= c <= '9' }

  predicate AllDigits(s: string) {
    forall i :: 0 <= i < |s| ==> IsDigit(s[i])
  }

  function DigitChar(d: nat): (c: char)
    requires d < 10
    ensures IsDigit(c)
  {
    ('0' as int + d) as char
  }

  function DigitValue(c: char): (d: nat)
    requires IsDigit(c)
    ensures d < 10 && DigitChar(d) == c
  {
    c as int - '0' as int
  }

  /** `Number.prototype.toString()` on a non-negative integer. */
  function Decimal(n: nat): (r: string)
    ensures |r| > 0 && AllDigits(r)
    ensures n >= 10 ==> r[0] != '0'
    decreases n
  {
    if n < 10 then [DigitChar(n)] else Decimal(n / 10) + [DigitChar(n % 10)]
  }

  /** The number a string of decimal digits denotes. */
  function DecimalValue(s: string): nat
    requires AllDigits(s)
  {
    if |s| == 0 then 0 else DecimalValue(s[..|s| - 1]) * 10 + DigitValue(s[|s| - 1])
  }

  /** Printing a number and reading it back gives the number. */
  lemma {:induction false} DecimalRoundTrip(n: nat)
    ensures DecimalValue(Decimal(n)) == n
    decreases n
  {
    var r := Decimal(n);
    if n >= 10 {
      DecimalRoundTrip(n / 10);
      assert r[..|r| - 1] == Decimal(n / 10);
    }
  }

  /** A number in [100000, 999999] prints as exactly six digits. */
  lemma SixDigitDecimal(n: nat)
    requires 100000 <= n <= 999999
    ensures |Decimal(n)| == 6
  {
    var n1 := n / 10;
    var n2 := n1 / 10;
    var n3 := n2 / 10;
    var n4 := n3 / 10;
    var n5 := n4 / 10;
    assert 1 <= n5 < 10;
    assert |Decimal(n5)| == 1;
    assert |Decimal(n4)| == 2;
    assert |Decimal(n3)| == 3;
    assert |Decimal(n2)| == 4;
    assert |Decimal(n1)| == 5;
  }
}

=== FILE: theme.dfy ===
/** The theme provider (context/ThemeContext.jsx): the table of four themes,
    the initial choice read from storage, the fallback for unknown ids, the
    guarded setter, and the effect that persists the choice and marks the
    document body with the theme's class. Storage and the body's class list
    are explicit values. Each theme's colour classes are not modelled. */
module Theme {
  import opened Base

  datatype Theme = Theme(id: string, name: string)

  const Royal := Theme("royal", "Royal Amethyst")
  const Noir := Theme("noir", "Midnight Noir")
  const Emerald := Theme("emerald", "Emerald Estate")
  const RoseGold := Theme("rosegold", "Rose Gold Luxe")

  /** The exported `themes` object. */
  const Themes: map<string, Theme> :=
    map["royal" := Royal, "noir" := Noir, "emerald" := Emerald, "rosegold" := RoseGold]

  /** The four ids. */
  predicate Known(id: string) {
    id == "royal" || id == "noir" || id == "emerald" || id == "rosegold"
  }

  /** There are four themes, each filed under its own id. */
  lemma ThemesTable()
    ensures forall k :: k in Themes <==> Known(k)
    ensures |Themes| == 4
    ensures forall k :: k in Themes ==> Themes[k].id == k
  {
    assert Themes.Keys == {"royal", "noir", "emerald", "rosegold"};
    assert |Themes.Keys| == 4;
  }

  /** The initial `themeId`: the stored value, unless there is none or it is
      empty, in which case "royal". */
  function InitialThemeId(stored: Option<string>): (r: string)
    ensures r != ""
    ensures stored.Some? && stored.value != "" ==> r == stored.value
    ensures stored.None? || stored.value == "" ==> r == "royal"
  {
    if stored.Some? && stored.value != "" then stored.value else "royal"
  }

  /** `themes[themeId] || themes.royal` */
  function CurrentTheme(themeId: string): (r: Theme)
    ensures r in Themes.Values
    ensures themeId in Themes ==> r.id == themeId
    ensures themeId !in Themes ==> r == Royal
  {
    assert Themes["royal"] == Royal;
    if themeId in Themes then Themes[themeId] else Royal
  }

  // ---------------------------------------------------------------------------
  // The body class effect
  // ---------------------------------------------------------------------------

  /** The class a theme puts on the document body. */
  function ClassOf(t: string): string {
    "theme-" + t
  }

  lemma ClassOfInjective(a: string, b: string)
    ensures ClassOf(a) == ClassOf(b) <==> a == b
  {
    assert ClassOf(a)[6..] == a;
    assert ClassOf(b)[6..] == b;
  }

  /** The classes of the four themes. */
  const ThemeClasses: set<string> := {"theme-royal", "theme-noir", "theme-emerald", "theme-rosegold"}

  /** The class of an id is a theme class exactly when the id is known. */
  lemma ThemeClassOf(id: string)
    ensures ClassOf(id) in ThemeClasses <==> Known(id)
  {
    assert ClassOf("royal") == "theme-royal";
    assert ClassOf("noir") == "theme-noir";
    assert ClassOf("emerald") == "theme-emerald";
    assert ClassOf("rosegold") == "theme-rosegold";
    ClassOfInjective(id, "royal");
    ClassOfInjective(id, "noir");
    ClassOfInjective(id, "emerald");
    ClassOfInjective(id, "rosegold");
  }

  /** The ids in the order the effect walks them. */
  const EffectOrder: seq<string> := ["royal", "emerald", "rosegold", "noir"]

  /** `.filter((t) => t !== themeId).forEach((t) => classList.remove("theme-" + t))` */
  function RemoveOthers(c: set<string>, ts: seq<string>, themeId: string): set<string>
    decreases |ts|
  {
    if |ts| == 0 then c
    else RemoveOthers(if ts[0] != themeId then c - {ClassOf(ts[0])} else c, ts[1..], themeId)
  }

  /** A class survives the walk when it was present and belongs to none of the
      walked ids other than `themeId`. */
  lemma {:induction false} RemoveOthersIff(c: set<string>, ts: seq<string>, themeId: string, x: string)
    ensures x in RemoveOthers(c, ts, themeId) <==>
      x in c && forall k :: 0 <= k < |ts| && ts[k] != themeId ==> x != ClassOf(ts[k])
    decreases |ts|
  {
    if |ts| > 0 {
      var c' := if ts[0] != themeId then c - {ClassOf(ts[0])} else c;
      RemoveOthersIff(c', ts[1..], themeId, x);
      if x in c && forall k :: 0 <= k < |ts| && ts[k] != themeId ==> x != ClassOf(ts[k]) {
        forall k | 0 <= k < |ts[1..]| && ts[1..][k] != themeId ensures x != ClassOf(ts[1..][k]) {
          assert ts[1..][k] == ts[k + 1];
        }
      }
    }
  }

  /** The whitespace of the DOM's token lists: tab, line feed, form feed,
      carriage return and space. */
  predicate AsciiSpace(ch: char) {
    var n := ch as int;
    n == 0x09 || n == 0x0A || n == 0x0C || n == 0x0D || n == 0x20
  }

  /** A string `classList.add` accepts: it throws an InvalidCharacterError on a
      token holding any of that whitespace. */
  predicate Token(s: string) {
    forall k :: 0 <= k < |s| ==> !AsciiSpace(s[k])
  }

  /** The class of an id is a token exactly when the id is one. */
  lemma TokenClassOf(id: string)
    ensures Token(ClassOf(id)) <==> Token(id)
  {
    var c := ClassOf(id);
    assert forall k :: 0 <= k < |id| ==> c[k + 6] == id[k];
    if !Token(id) {
      var k :| 0 <= k < |id| && AsciiSpace(id[k]);
      assert AsciiSpace(c[k + 6]);
    }
  }

  /** What the effect leaves on the body, and whether a `classList.add` threw. */
  datatype Outcome = Outcome(body: set<string>, threw: bool)

  /** The effect's class-list changes, branch by branch as the source makes
      them. In the else branch `theme-noir` is removed before the id's class is
      added, so a throwing add leaves just that removal behind. */
  function BodyClasses(c: set<string>, themeId: string): (r: Outcome)
    ensures r.threw <==> !Token(themeId)
    ensures !r.threw ==> r.body == (c - ThemeClasses) + {ClassOf(themeId)}
    ensures r.threw ==> r.body == c - {"theme-noir"}
  {
    TokenClassOf(themeId);
    if themeId == "noir" then
      NoirBranch(c);
      assert Token("noir");
      Outcome((c + {"theme-noir"}) - {"theme-royal", "theme-emerald", "theme-rosegold"}, false)
    else if !Token(ClassOf(themeId)) then
      Outcome(c - {"theme-noir"}, true)
    else
      OtherBranch(c, themeId);
      Outcome(RemoveOthers((c - {"theme-noir"}) + {ClassOf(themeId)}, EffectOrder, themeId), false)
  }

  lemma NoirBranch(c: set<string>)
    ensures (c + {"theme-noir"}) - {"theme-royal", "theme-emerald", "theme-rosegold"}
         == (c - ThemeClasses) + {ClassOf("noir")}
  {
    assert ClassOf("noir") == "theme-noir";
  }

  lemma OtherBranch(c: set<string>, themeId: string)
    requires themeId != "noir"
    ensures RemoveOthers((c - {"theme-noir"}) + {ClassOf(themeId)}, EffectOrder, themeId)
         == (c - ThemeClasses) + {ClassOf(themeId)}
  {
    var c0 := (c - {"theme-noir"}) + {ClassOf(themeId)};
    var r := RemoveOthers(c0, EffectOrder, themeId);
    var want := (c - ThemeClasses) + {ClassOf(themeId)};
    assert ClassOf("royal") == "theme-royal";
    assert ClassOf("noir") == "theme-noir";
    assert ClassOf("emerald") == "theme-emerald";
    assert ClassOf("rosegold") == "theme-rosegold";
    forall x ensures x in r <==> x in want {
      RemoveOthersIff(c0, EffectOrder, themeId, x);
      ThemeClassOf(themeId);
      forall k | 0 <= k < 4 ensures ClassOf(EffectOrder[k]) == ClassOf(themeId) <==> EffectOrder[k] == themeId {
        ClassOfInjective(EffectOrder[k], themeId);
      }
    }
  }

  /** For a known theme the body ends with exactly that theme's class among the
      four; every class not belonging to a theme is left alone. */
  lemma BodyHasOneThemeClass(c: set<string>, themeId: string)
    requires themeId in Themes
    ensures !BodyClasses(c, themeId).threw
    ensures BodyClasses(c, themeId).body * ThemeClasses == {ClassOf(themeId)}
    ensures BodyClasses(c, themeId).body - ThemeClasses == c - ThemeClasses
  {
    ThemesTable();
    assert Token(themeId);
    ThemeClassOf(themeId);
  }

  // ---------------------------------------------------------------------------
  // The provider's state
  // ---------------------------------------------------------------------------

  /** The chosen id, the stored `app-theme` value, the body's class list, and
      whether an effect threw. An error thrown in an effect, with no error
      boundary around the provider, unmounts the whole page. */
  datatype Provider = Provider(themeId: string, stored: Option<string>, body: set<string>, crashed: bool)

  /** The effect run after a render with a new `themeId`: store it, then set
      the body classes. The value is stored before the class list can throw. */
  function Effect(p: Provider): (r: Provider)
    ensures r.themeId == p.themeId && r.stored == Some(p.themeId)
    ensures r.crashed <==> !Token(p.themeId)
    ensures !r.crashed ==> r.body == (p.body - ThemeClasses) + {ClassOf(p.themeId)}
  {
    var o := BodyClasses(p.body, p.themeId);
    p.(stored := Some(p.themeId), body := o.body, crashed := o.threw)
  }

  /** Mounting the provider: read storage, then run the effect once. */
  function Mount(stored: Option<string>, body: set<string>): (r: Provider)
    ensures r.themeId == InitialThemeId(stored)
    ensures Persisted(r)
  {
    Effect(Provider(InitialThemeId(stored), stored, body, false))
  }

  /** `setTheme(id)`: only a known id is taken; choosing the current id does
      not re-render, so the effect does not run again. A crashed page offers
      nothing to call it from. */
  function SetTheme(p: Provider, id: string): (r: Provider)
    ensures !p.crashed && id in Themes ==> r.themeId == id
    ensures p.crashed || id !in Themes ==> r == p
    ensures r.crashed == p.crashed
    ensures Persisted(p) ==> Persisted(r)
  {
    if !p.crashed && id in Themes && id != p.themeId then
      ThemesTable();
      assert Token(id);
      Effect(p.(themeId := id))
    else p
  }

  /** Storage holds the current choice, and it is not empty. */
  predicate Persisted(p: Provider) {
    p.themeId != "" && p.stored == Some(p.themeId)
  }

  /** Setting themes one after the other. */
  function SetThemes(p: Provider, ids: seq<string>): (r: Provider)
    ensures Persisted(p) ==> Persisted(r)
    ensures p.themeId in Themes ==> r.themeId in Themes
    decreases |ids|
  {
    if |ids| == 0 then p else SetThemes(SetTheme(p, ids[0]), ids[1..])
  }

  /** Reloading the page after any sequence of choices comes back to the
      theme last chosen, and a known theme stays known. */
  lemma ReloadRestoresChoice(stored: Option<string>, body: set<string>, ids: seq<string>, body': set<string>)
    ensures var p := SetThemes(Mount(stored, body), ids);
      && Mount(p.stored, body').themeId == p.themeId
      && CurrentTheme(Mount(p.stored, body').themeId) == CurrentTheme(p.themeId)
  {
  }

  /** A stored id that names no theme but is a token is kept as the id: the
      royal palette is shown, yet the body carries that id's class and none of
      the four. */
  lemma UnknownStoredId(body: set<string>, id: string)
    requires id != "" && id !in Themes && Token(id)
    ensures var p := Mount(Some(id), body);
      && !p.crashed
      && p.themeId == id
      && CurrentTheme(p.themeId) == Royal
      && p.body * ThemeClasses == {}
  {
    ThemesTable();
    ThemeClassOf(id);
    var p := Mount(Some(id), body);
    assert forall x :: x !in p.body * ThemeClasses;
  }

  /** A stored id holding whitespace makes the first effect throw, after it
      has stored the id again: the page crashes, and so does every reload. */
  lemma StoredIdWithSpaceCrashes(body: set<string>, id: string, body': set<string>)
    requires !Token(id)
    ensures var p := Mount(Some(id), body);
      && p.crashed
      && p.stored == Some(id)
      && Mount(p.stored, body').crashed
  {
    assert id != "";
  }

  /** Every stored value is either a known theme, shown normally, an unknown
      token, shown as royal, or a crash. Choices made in the page are always
      known, so only a value written outside the page can crash it. */
  lemma {:induction false} ChoicesNeverCrash(p: Provider, ids: seq<string>)
    requires !p.crashed
    ensures !SetThemes(p, ids).crashed
    decreases |ids|
  {
    if |ids| > 0 {
      ChoicesNeverCrash(SetTheme(p, ids[0]), ids[1..]);
    }
  }
}
